=== FILE: README.md ===
# Sunshine Fitsum Daycare: a verified model of the website's logic

This project models, in Dafny, the logic of the Sunshine Fitsum Daycare
website that does more than render markup:

- the two server actions that take the contact and enrollment forms. Each one
  validates the fields (minimum lengths, an email check, and the USA phone
  rule: 10 digits, or 11 digits starting with `1`, once non-digits are
  removed). It then chooses simulated or live dispatch from the environment,
  composes the notification and the optional confirmation mail, and maps
  every outcome to `{success, message, errors?}`;
- the two client forms: the phone formatter applied as the visitor types, and
  the `idle → submitting → success | error` status with its reset;
- the virtual tour's location table, hotspot graph and next/previous/go-to
  navigation;
- the gallery's category filter and lightbox lookup;
- the auto-advancing step counter of the enrollment-process animation;
- the SEO helpers: canonical URLs, the production test, and the breadcrumb and
  FAQ structured data.

Everything is a pure function over immutable records. A few things become
parameters of the operations that use them:

- the process environment (`Environment.Env`);
- the email predicate (`isEmail`);
- the mail transport (`send`, which says for each mail whether `sendMail`
  resolves or throws);
- date formatting (`formatDate`).

A form field that the browser did not send is `Missing`, distinct from the
empty string. The modules follow the source:

- `Text`, `PhoneRule`, `Environment`, `Mail` and `Forms` hold the shared
  pieces of the two actions;
- `ContactAction` and `EnrollmentAction` are the actions;
- `FormStatus`, `ContactSection` and `EnrollmentSection` are the client forms;
- `VirtualTour`, `Gallery`, `EnrollmentProcess` and `Seo` are the components
  and helpers of the same names;
- `Wrappers` and `Modular` are utilities.

## Model

| member | source | states |
|---|---|---|
| Text.DigitsOf | app/api/contact/action.ts:17 | the digit projection consists of ASCII digits only and is never longer than the input |
| Text.DigitsOfDigits | app/api/contact/action.ts:17 | a string of digits is its own projection, so projecting twice is projecting once |
| Text.DigitsOfConcat | app/api/contact/action.ts:17 | projecting a concatenation projects each part: the rule looks at the digits alone, wherever the separators are |
| Text.DigitsOfIgnoresNonDigit | app/api/contact/action.ts:17 | inserting a non-digit character anywhere leaves the digit projection unchanged |
| Text.ReplaceNewlines | app/api/contact/action.ts:98 | the rewritten message contains no line feed, and a message without line feeds comes through unchanged |
| Text.ReplaceNewlinesConcat | app/api/contact/action.ts:98 | the rewrite works piecewise: rewriting a concatenation rewrites each part |
| Text.LineFeedBecomesBreak | app/api/contact/action.ts:98 | each line feed, wherever it sits, becomes `<br>` with the text on both sides rewritten on its own |
| PhoneRule.UsaPhoneIffDigits | app/api/contact/action.ts:14-24 | a value passes the phone rule exactly when its digits are ten digits, or `1` followed by ten digits |
| PhoneRule.UsaPhoneIgnoresNonDigit | app/api/contact/action.ts:17-20 | the phone verdict does not change when a non-digit character is inserted or removed |
| PhoneRule.UsaPhoneOfDigits | app/api/contact/action.ts:17-20 | validating the digits alone gives the same verdict as validating the raw value |
| PhoneRule.AcceptsFormattedNumber | app/api/contact/action.ts:14-24 | `(206) 688-9088` is accepted |
| PhoneRule.AcceptsCountryCode | app/api/contact/action.ts:20 | `1-206-688-9088` (11 digits, leading `1`) is accepted |
| PhoneRule.RejectsShortNumber | app/api/contact/action.ts:14-24 | `206-68-908`, with fewer than ten digits, is rejected |
| PhoneRule.RejectsWrongCountryCode | app/api/contact/action.ts:20 | eleven digits that do not start with `1` are rejected |
| Environment.BusinessAddress | app/api/contact/action.ts:86 | the business address is `EMAIL_USER` when it is set and non-empty, otherwise the fixed default, and never empty |
| Mail.Deliver | app/api/contact/action.ts:103-114 | the notification is always attempted first; the confirmation is attempted exactly when there is one and the first send did not throw; success means no attempted send threw |
| Forms.Collect | app/api/contact/action.ts:7-28 | the collected issues are empty exactly when every rule's own list is empty |
| Forms.CollectFlags | app/api/contact/action.ts:244 | a field is flagged in the collected issues exactly when some rule's list for that field is non-empty |
| Forms.CollectKeeps | app/api/contact/action.ts:244 | every issue a rule raises appears in the collected list |
| Forms.CollectHas | app/api/contact/action.ts:244 | an issue is in the collected list exactly when some rule raised it |
| Forms.CollectHasAt | app/api/contact/action.ts:244 | with one rule per field, an issue keyed by a rule's field is collected exactly when that rule raised it |
| Forms.MinLengthReported | app/api/contact/action.ts:8 | a `min(n)` rule's custom message is reported exactly for a present, too-short value, and the type issue exactly for a missing one |
| Forms.EmailReported | app/api/contact/action.ts:9 | the email message is reported exactly for a present value failing the email predicate, and the type issue exactly for a missing one |
| Forms.PhoneReported | app/api/contact/action.ts:11-25 | "Phone number is required" is reported exactly for an empty value, the USA-number message exactly for a present non-USA value, and the type issue exactly for a missing one |
| Forms.MinLengthIssues | app/api/contact/action.ts:8 | a `min(n)` rule raises issues, all keyed by its field, exactly when the value is missing or shorter than `n`: the type issue alone for a missing value, its own custom message alone for a short one |
| Forms.EmailIssues | app/api/contact/action.ts:9 | the email rule raises issues, keyed by its field, exactly when the value is missing or fails the email predicate: the type issue alone, or "Please enter a valid email address" alone |
| Forms.PhoneIssues | app/api/contact/action.ts:11-25 | the phone rule raises issues, keyed by its field, exactly when the value is missing, empty or not a USA number; a missing value raises the type issue alone, an empty one "Phone number is required" followed by the USA-number message, and any other non-USA value the USA-number message alone |
| ContactAction.Issues | app/api/contact/action.ts:7-28 | every rule is checked: the issue list is empty exactly when the form is valid, and each of the five fields is flagged exactly when its own rule fails |
| ContactAction.ReportedMessages | app/api/contact/action.ts:7-28 | each field's own custom message appears under that field exactly when its present value fails the rule, and the type issue exactly when the field is missing |
| ContactAction.Parse | app/api/contact/action.ts:36-45 | parsing succeeds exactly on valid forms and returns the five values unchanged; otherwise it returns the non-empty issue list |
| ContactAction.Submit | app/api/contact/action.ts:33-249 | invalid input gives "Please check your form inputs." with issues, sends nothing and produces no preview log. Valid input in simulated mode gives the preview message and sends nothing. In live mode one or two mails are attempted, and success means that no send threw |
| ContactAction.RejectionReportsEachRule | app/api/contact/action.ts:240-245 | a rejected submission carries an entry for a field exactly when that field's rule failed |
| ContactAction.PreviewLogsSubmission | app/api/contact/action.ts:48-66 | in simulated mode nothing is sent and the log holds the five submitted values |
| ContactAction.LivePrimaryMail | app/api/contact/action.ts:83-100 | the notification goes to `EMAIL_USER`, replies to the visitor, is titled `Website Contact: ` plus the subject, and carries the name, email, phone and subject, and the message with the message's line feeds as `<br>` |
| ContactAction.ConfirmationIffFlag | app/api/contact/action.ts:105-188 | a confirmation is attempted exactly when `SEND_CONFIRMATION` is `"true"` and the notification went out; it goes to the visitor, replies to the business, is titled "Thank you for contacting us", and repeats the name, the subject and the message with `<br>` line breaks |
| ContactAction.FailedConfirmationFailsSubmission | app/api/contact/action.ts:234-247 | a throwing confirmation after a sent notification still fails the submission with the generic message and no issues |
| ContactAction.ShortPhoneRejected | app/api/contact/action.ts:14-24 | a three-digit phone number is rejected with the USA-number message under `phone` |
| EnrollmentAction.Issues | app/api/enrollment/action.ts:7-32 | each of the eight required fields is flagged exactly when its rule fails, the optional message never is, and the list is empty exactly on valid forms |
| EnrollmentAction.ReportedContactMessages | app/api/enrollment/action.ts:8-25 | the parent name, email and phone rules report their own messages under their own fields exactly when a present value fails, and the type issue exactly when the field is missing |
| EnrollmentAction.ReportedChildMessages | app/api/enrollment/action.ts:26-27 | the child name and birth-date rules report their own messages exactly for a present, too-short value, and the type issue exactly for a missing one |
| EnrollmentAction.ReportedProgramMessages | app/api/enrollment/action.ts:28-30 | the program, schedule and start-date rules report their own messages exactly for a present, too-short value, and the type issue exactly for a missing one |
| EnrollmentAction.Parse | app/api/enrollment/action.ts:40-53 | parsing succeeds exactly on valid forms, keeps the values, and turns a missing message into `""` |
| EnrollmentAction.ProgramLabel | app/api/enrollment/action.ts:56-70 | the label is "Unknown Program" exactly for codes other than the four offered ones |
| EnrollmentAction.ProgramLabelRoundTrip | app/api/enrollment/action.ts:56-70 | the four program labels are distinct and read back to their codes |
| EnrollmentAction.ScheduleLabel | app/api/enrollment/action.ts:113-124 | the label is "Unknown Schedule" exactly for codes other than the three offered ones |
| EnrollmentAction.ScheduleLabelRoundTrip | app/api/enrollment/action.ts:113-124 | the three schedule labels are distinct and read back to their codes |
| EnrollmentAction.AdditionalIffMessage | app/api/enrollment/action.ts:164-170 | the notification has an additional-information section exactly when the message is non-empty |
| EnrollmentAction.Submit | app/api/enrollment/action.ts:37-339 | the branch structure of the contact action, with the enrollment messages |
| EnrollmentAction.RejectionReportsEachRule | app/api/enrollment/action.ts:328-336 | a rejected submission flags each required field exactly when its rule failed and never flags the message |
| EnrollmentAction.MessageIsOptional | app/api/enrollment/action.ts:31 | acceptance never depends on the message field |
| EnrollmentAction.PreviewLogsSubmission | app/api/enrollment/action.ts:72-95 | in simulated mode nothing is sent; the log holds all nine values, raw except the program, which appears as its label, and the message, which is `""` when absent |
| EnrollmentAction.LivePrimaryMail | app/api/enrollment/action.ts:140-173 | the notification goes to `EMAIL_USER`, replies to the parent, is titled after the child, carries the parent's name, email and phone and the child's name, renders the birth and start dates through `formatDate`, names program and schedule by their labels, and carries the message only when non-empty |
| EnrollmentAction.ConfirmationIffFlag | app/api/enrollment/action.ts:179-269 | a confirmation is attempted exactly when `SEND_CONFIRMATION` is `"true"` and the notification went out; it goes to the parent, replies to the business, is titled "Thank you for your enrollment request", greets the parent and names the child, the program label and the formatted start date |
| EnrollmentAction.FailedConfirmationFailsSubmission | app/api/enrollment/action.ts:324-337 | a throwing confirmation after a sent notification fails the submission with the generic message and no issues |
| EnrollmentAction.ProgramFallbackInMail | app/api/enrollment/action.ts:56-70 | in live mode every code outside the four offered ones still mails, naming "Unknown Program"; an offered code is named by its own label |
| FormStatus.Settle | components/contact-section.tsx:62-85 | success exactly for a returned successful result; a returned failure shows its message and issues; a throw shows the fixed unexpected-error banner |
| FormStatus.Begin | components/contact-section.tsx:54-59 | a submit with the form mounted and the button enabled moves to `submitting` with the banner text; otherwise nothing changes |
| FormStatus.Finish | components/contact-section.tsx:60-86 | settling a submission re-enables the button and navigates to `/thank-you` exactly on success |
| ContactSection.FormatPhoneNumber | components/contact-section.tsx:31-46 | the output's digits are the input's first ten digits, and every output character is a digit, `(`, `)`, space or `-` |
| ContactSection.FormatCases | components/contact-section.tsx:31-46 | up to three digits come out as typed; four to six become `(` + first three + `) ` + the rest; seven or more become `(XXX) XXX-` followed by digits seven to ten |
| ContactSection.FormatIdempotent | components/contact-section.tsx:31-46 | formatting a formatted value changes nothing |
| ContactSection.FormatKeepsAtMostTenDigits | components/contact-section.tsx:42 | the output has at most ten digits, and keeps every digit of an input with at most ten |
| ContactSection.ServerAcceptsFormatted | components/contact-section.tsx:31-46 | the server's phone rule accepts a formatted value exactly when the input had at least ten digits |
| ContactSection.CountryCodeLosesLastDigit | components/contact-section.tsx:42 | `1` plus ten digits, itself valid, is cut to its first ten digits, a different number |
| ContactSection.ResetForm | components/contact-section.tsx:88-91 | reset gives the idle status, an empty banner and an empty phone field |
| ContactSection.RunKeepsPhoneFormatted | components/contact-section.tsx:48-52 | after any sequence of events the phone field is a formatter fixed point with at most ten digits |
| ContactSection.HandleSubmit | components/contact-section.tsx:54-86 | a submit shows `submitting` and disables the button; the outcome then gives success with navigation, an error with the result's message and issues, or the unexpected-error banner |
| ContactSection.DisabledWhileSubmitting | components/contact-section.tsx:195 | a submit while one is in flight changes nothing |
| EnrollmentSection.SameFormatter | components/enrollment-section.tsx:35-50 | the component's own copy of the formatter is the same function as the contact form's |
| EnrollmentSection.OfferedOptionsAreKnown | components/enrollment-section.tsx:219-254 | every offered program and schedule code, and the preselected `fulltime`, has a named label on the server |
| EnrollmentSection.ThankYouPanelUnreachable | components/enrollment-section.tsx:119-152 | `formSubmitted` is never set, so the inline thank-you panel never shows |
| EnrollmentSection.HandleSubmit | components/enrollment-section.tsx:58-90 | the submit lifecycle of the contact form, with the enrollment banner text |
| EnrollmentSection.ButtonLock | components/enrollment-section.tsx:275 | the button is disabled from a submit until its settlement, and a submit while disabled changes nothing |
| VirtualTour.FindIndex | components/virtual-tour.tsx:105 | the index of the first location with the id, or -1 exactly when there is none |
| VirtualTour.Find | components/virtual-tour.tsx:90 | the lookup finds a location of the table with the id, or nothing exactly when no location has it |
| VirtualTour.NavigateTo | components/virtual-tour.tsx:89-101 | an unknown id leaves the state unchanged; a known one moves there and sets the loading flag |
| VirtualTour.StepPositions | components/virtual-tour.tsx:104-114 | next and previous move one position forward and back around the cycle and set the loading flag |
| VirtualTour.PreviousUndoesNext | components/virtual-tour.tsx:104-114 | previous after next returns to the starting location |
| VirtualTour.NextUndoesPrevious | components/virtual-tour.tsx:104-114 | next after previous returns to the starting location |
| VirtualTour.NextTimesPosition | components/virtual-tour.tsx:104-108 | `n` presses of next advance the position by `n` modulo the table length |
| VirtualTour.FullCycleComesBack | components/virtual-tour.tsx:104-108 | as many presses of next as there are locations return to the start |
| VirtualTour.RunStaysValid | components/virtual-tour.tsx:80-114 | after any events the tour shows a location of the table, at a position in range |
| VirtualTour.TourTable | components/virtual-tour.tsx:10-80 | the seven ids are unique, so from the initial state the position always stays in [0, 7) |
| VirtualTour.HotspotsWellFormed | components/virtual-tour.tsx:10-77 | every hotspot leads to a location of the table and lies within [0, 100] on both axes |
| VirtualTour.LinksSymmetric | components/virtual-tour.tsx:10-77 | whenever a location links to another, the other links back |
| VirtualTour.EveryLocationReachable | components/virtual-tour.tsx:10-77 | every location can be reached from the entrance by following hotspots |
| Gallery.Filter | components/gallery-section.tsx:201 | an item is kept exactly when it lists the category, and the kept items keep their order |
| Gallery.FilteredItems | components/gallery-section.tsx:200-201 | "all" gives the whole table in order; any other category gives exactly the items listing it, in order |
| Gallery.ItemIds | components/gallery-section.tsx:22-194 | item `i` of the 24 has id `i + 1` |
| Gallery.FindItem | components/gallery-section.tsx:286 | the lookup finds an item with the id, or nothing exactly when no item has it |
| Gallery.LightboxShowsClicked | components/gallery-section.tsx:237-297 | the lightbox finds exactly the clicked photo |
| Gallery.CategoriesDeclared | components/gallery-section.tsx:10-194 | every category an item lists is one of the declared buttons other than "all" |
| Gallery.NoEmptyCategory | components/gallery-section.tsx:200-268 | no declared category has an empty photo list |
| EnrollmentProcess.TickAdvances | components/animated-enrollment-process.tsx:61 | the tick maps `k` to `k + 1` below 5 and 5 to 1 |
| EnrollmentProcess.TicksPosition | components/animated-enrollment-process.tsx:59-62 | `n` ticks from step `a` reach step `(a - 1 + n) mod 5 + 1` |
| EnrollmentProcess.FiveTicksComeBack | components/animated-enrollment-process.tsx:61 | five ticks return every step to itself |
| EnrollmentProcess.RunStaysInRange | components/animated-enrollment-process.tsx:54-106 | ticks and step clicks keep the active step in 1..5 |
| EnrollmentProcess.ProgressWidth | components/animated-enrollment-process.tsx:85 | the progress width lies in [0, 100], with 0 at step 1 and 100 at step 5 |
| EnrollmentProcess.ProgressFollowsTick | components/animated-enrollment-process.tsx:61-85 | each tick widens the bar by 25 until the wrap back to 0 |
| EnrollmentProcess.CaptionAlwaysFound | components/animated-enrollment-process.tsx:10-136 | the caption lookup by the active step's id always succeeds |
| Seo.NormalizePath | lib/seo-utils.ts:12 | the normalised path starts with `/`, equals a path that already did, and otherwise is the path behind one added `/` |
| Seo.CanonicalUrl | lib/seo-utils.ts:10-14 | the canonical URL is the production URL followed by the path, with a `/` added when the path lacks one, and always starts with the production URL and `/` |
| Seo.CanonicalAddsMissingSlash | lib/seo-utils.ts:12-13 | a path without a leading `/` has the same canonical URL as with it; `""` and `/` both give a trailing `/` |
| Seo.CanonicalRoundTrip | lib/seo-utils.ts:10-14 | the path read back from a canonical URL is the normalised path, so two paths share a URL exactly when they normalise alike |
| Seo.PreviewIsNotProduction | lib/seo-utils.ts:19-23 | production needs `VERCEL_ENV` to be exactly `production` (any other value or an unset one is never production); given that, it holds exactly when one of the two URL variables is the production host |
| Seo.ListItemsFrom | lib/seo-utils.ts:210-215 | list item `i` sits at position `start + i + 1` and carries crumb `i`'s name and URL |
| Seo.Breadcrumbs | lib/seo-utils.ts:206-217 | one list item per crumb, in order, at positions 1, 2, …, carrying the names and URLs |
| Seo.BreadcrumbsRoundTrip | lib/seo-utils.ts:206-217 | reading the crumbs back from the list gives the input |
| Seo.Questions | lib/seo-utils.ts:226-233 | one question per entry, in order, with its answer |
| Seo.FaqStructuredData | lib/seo-utils.ts:222-235 | the FAQ page has as many questions as entries, in order, each carrying its question and answer |
| Seo.FaqRoundTrip | lib/seo-utils.ts:222-235 | reading the entries back from the page gives the input |

## Left out

- Sending and logging: the SMTP transport (host, port, TLS, credentials) and
  `console.log`/`console.error` are not modelled. A send is the outcome the
  `send` parameter gives it. The simulated-mode log is returned as a record.
- `createTransport` is folded into the first send. An exception there
  fails the submission exactly as a throwing first send does.
- The email rule: the schema's email regular expression is not visible, so
  it is the `isEmail` parameter.
- Issue order and wording: the order zod reports issues in, and its
  built-in wording for a missing (non-string) field, are not modelled. A
  missing field carries a `WrongType` marker instead of a message. Contracts
  speak of which issues are reported under which field, not of their order
  across fields.
- String length: zod measures length in UTF-16 code units, while the model
  counts Dafny characters. The two differ only outside the Basic
  Multilingual Plane.
- Date formatting: `toLocaleDateString` depends on locale and time zone, so
  it is the `formatDate` parameter.
- Timestamps: the `X-Entity-Ref-ID` header depends on the clock.
- Markup: the HTML and plain-text templates around the substituted values are
  not modelled. A mail body is the list of values substituted into it.
- Rendering: React rendering, styling, animation, interval timing, router
  navigation (a route is returned instead), fullscreen, audio and image
  fallbacks are not modelled. The tour's pictures and descriptions, the
  gallery's images and descriptions, and the steps' icons and colours are
  dropped from the tables because no modelled logic reads them.
- `components/performance-monitor.tsx`: it uses browser observers and
  floating-point measurements.
- `app/robots.ts` and `app/sitemap.ts`: these are static route tables behind
  one environment test. The sitemap's test uses OR and the robots test uses
  AND. Neither is part of this model.
- Static configuration: the layout, manifest, icons, Open Graph image and
  the page and section components that only render constant content are not
  modelled.
- The remaining generators of `lib/seo-utils.ts` (local-business data, the
  metadata defaults, `pageKeywords`) are constant tables and are not part of
  this model.
- Concurrency: each submission is one independent call. The model does not
  represent an action settling after the form has left the `submitting`
  state. `FormStatus.Finish` ignores such a settlement.
- Virtual-tour navigation is stated for any table with unique ids. The
  component's own seven-entry table is connected to those lemmas by
  `TourTable`.

=== FILE: contact_action.dfy ===
/** The contact-form server action `submitContactForm`
    (app/api/contact/action.ts). */
module ContactAction {
  import opened Wrappers
  import opened Text
  import opened Environment
  import opened Mail
  import opened Forms

  /** The five fields read from the submitted form. */
  datatype ContactForm = ContactForm(
    name: FieldValue, email: FieldValue, phone: FieldValue,
    subject: FieldValue, message: FieldValue)

  /** A validated inquiry: the same fields, all present. */
  datatype Inquiry = Inquiry(name: string, email: string, phone: string, subject: string, message: string)

  const NameMessage := "Name must be at least 2 characters"
  const SubjectMessage := "Subject is required"
  const MessageMessage := "Message must be at least 10 characters"
  const PreviewMessage := "Your message has been submitted successfully! (Preview Mode - Email not sent)"
  const SentMessage := "Your message has been sent successfully!"
  const FailedMessage := "Failed to send your message. Please try again later."
  const ConfirmationSubject := "Thank you for contacting us"

  /** Every rule of the contact schema holds. */
  predicate IsValid(f: ContactForm, isEmail: string -> bool) {
    && MinLengthOk(f.name, 2)
    && EmailOk(f.email, isEmail)
    && PhoneOk(f.phone)
    && MinLengthOk(f.subject, 2)
    && MinLengthOk(f.message, 10)
  }

  /** The rules of the contact schema, in declaration order. */
  function Checks(f: ContactForm, isEmail: string -> bool): seq<Check> {
    [Check("name", MinLengthIssues("name", f.name, 2, NameMessage)),
     Check("email", EmailIssues("email", f.email, isEmail)),
     Check("phone", PhoneIssues("phone", f.phone)),
     Check("subject", MinLengthIssues("subject", f.subject, 2, SubjectMessage)),
     Check("message", MinLengthIssues("message", f.message, 10, MessageMessage))]
  }

  /** All issues of the contact schema, every rule checked: each failing rule
      contributes entries keyed by its own field, and only those. */
  function Issues(f: ContactForm, isEmail: string -> bool): (r: seq<Issue>)
    ensures r == [] <==> IsValid(f, isEmail)
    ensures Flags(r, "name") <==> !MinLengthOk(f.name, 2)
    ensures Flags(r, "email") <==> !EmailOk(f.email, isEmail)
    ensures Flags(r, "phone") <==> !PhoneOk(f.phone)
    ensures Flags(r, "subject") <==> !MinLengthOk(f.subject, 2)
    ensures Flags(r, "message") <==> !MinLengthOk(f.message, 10)
  {
    var checks := Checks(f, isEmail);
    assert WellKeyed(checks);
    CollectFlagsAt(checks, 0);
    CollectFlagsAt(checks, 1);
    CollectFlagsAt(checks, 2);
    CollectFlagsAt(checks, 3);
    CollectFlagsAt(checks, 4);
    Collect(checks)
  }

  /** Each rule reports its own wording under its own field: the custom
      message exactly when a present value fails the rule, and the schema
      library's type message exactly when the field is missing. */
  lemma ReportedMessages(f: ContactForm, isEmail: string -> bool)
    ensures var r := Issues(f, isEmail);
      && (Issue("name", Says(NameMessage)) in r <==> f.name.Present? && |f.name.text| < 2)
      && (Issue("email", Says(EmailMessage)) in r <==> f.email.Present? && !isEmail(f.email.text))
      && (Issue("phone", Says(PhoneRule.PhoneRequiredMessage)) in r <==> f.phone == Present(""))
      && (Issue("phone", Says(PhoneRule.UsaPhoneMessage)) in r <==> f.phone.Present? && !PhoneRule.IsUsaPhone(f.phone.text))
      && (Issue("subject", Says(SubjectMessage)) in r <==> f.subject.Present? && |f.subject.text| < 2)
      && (Issue("message", Says(MessageMessage)) in r <==> f.message.Present? && |f.message.text| < 10)
    ensures var r := Issues(f, isEmail);
      && (Issue("name", WrongType) in r <==> f.name.Missing?)
      && (Issue("email", WrongType) in r <==> f.email.Missing?)
      && (Issue("phone", WrongType) in r <==> f.phone.Missing?)
      && (Issue("subject", WrongType) in r <==> f.subject.Missing?)
      && (Issue("message", WrongType) in r <==> f.message.Missing?)
  {
    var checks := Checks(f, isEmail);
    assert WellKeyed(checks);
    MinLengthReported(checks, 0, "name", f.name, 2, NameMessage);
    EmailReported(checks, 1, "email", f.email, isEmail);
    PhoneReported(checks, 2, "phone", f.phone);
    MinLengthReported(checks, 3, "subject", f.subject, 2, SubjectMessage);
    MinLengthReported(checks, 4, "message", f.message, 10, MessageMessage);
  }

  /** `contactFormSchema.parse`: the typed inquiry, or every issue found. */
  function Parse(f: ContactForm, isEmail: string -> bool): (r: Result<Inquiry, seq<Issue>>)
    ensures r.Ok? <==> IsValid(f, isEmail)
    ensures r.Ok? ==> r.value == Inquiry(f.name.text, f.email.text, f.phone.text, f.subject.text, f.message.text)
    ensures r.Err? ==> r.error == Issues(f, isEmail) && r.error != []
  {
    var issues := Issues(f, isEmail);
    if issues != [] then Err(issues)
    else Ok(Inquiry(f.name.text, f.email.text, f.phone.text, f.subject.text, f.message.text))
  }

  /** The record logged instead of mailing in simulated mode. */
  function PreviewLog(q: Inquiry): seq<Entry> {
    [Entry("name", q.name), Entry("email", q.email), Entry("phone", q.phone),
     Entry("subject", q.subject), Entry("message", q.message)]
  }

  /** The notification to the business. */
  function PrimaryMail(q: Inquiry, env: Env): Mail {
    Mail(SenderName, BusinessAddress(env), env.emailUser, q.email,
         "Website Contact: " + q.subject,
         [Entry("Name", q.name), Entry("Email", q.email), Entry("Phone", q.phone),
          Entry("Subject", q.subject), Entry("Message", ReplaceNewlines(q.message))],
         None)
  }

  /** The acknowledgement to the visitor. */
  function ConfirmationMail(q: Inquiry, env: Env): Mail {
    Mail(SenderName, BusinessAddress(env), Some(q.email), BusinessAddress(env),
         ConfirmationSubject,
         [Entry("Dear", q.name), Entry("Subject", q.subject), Entry("Message", ReplaceNewlines(q.message))],
         Some("<mailto:" + Interpolate(env.emailUser) + "?subject=Unsubscribe>"))
  }

  /** `submitContactForm`. The email check and the transport are parameters:
      `isEmail` is the schema's email predicate, `send` what each `sendMail`
      call does with a given mail. */
  function Submit(f: ContactForm, env: Env, isEmail: string -> bool, send: Mail -> SendOutcome): (out: Submission)
    ensures out.result.errors.Some? <==> !IsValid(f, isEmail)
    ensures !IsValid(f, isEmail) ==>
      && !out.result.success && out.result.message == CheckInputsMessage
      && out.attempted == [] && out.previewLog == None
    ensures IsValid(f, isEmail) && IsPreviewOrDev(env) ==>
      out.result == FormResult(true, PreviewMessage, None) && out.attempted == []
    ensures IsValid(f, isEmail) && !IsPreviewOrDev(env) ==>
      && 1 <= |out.attempted| <= 2
      && out.previewLog == None
      && (out.result.success <==> forall i :: 0 <= i < |out.attempted| ==> send(out.attempted[i]) == Sent)
      && out.result.message == (if out.result.success then SentMessage else FailedMessage)
  {
    match Parse(f, isEmail)
    case Err(issues) => Rejected(issues)
    case Ok(q) =>
      if IsPreviewOrDev(env) then
        Submission(FormResult(true, PreviewMessage, None), [], Some(PreviewLog(q)))
      else
        var confirmation := if ConfirmationEnabled(env) then Some(ConfirmationMail(q, env)) else None;
        Dispatched(Deliver(PrimaryMail(q, env), confirmation, send), SentMessage, FailedMessage)
  }

  /** A rejected submission lists, for each field, an entry exactly when that
      field's rule failed. */
  lemma RejectionReportsEachRule(f: ContactForm, env: Env, isEmail: string -> bool, send: Mail -> SendOutcome)
    requires !IsValid(f, isEmail)
    ensures var out := Submit(f, env, isEmail, send);
      && out.result.errors.Some?
      && (Flags(out.result.errors.value, "name") <==> !MinLengthOk(f.name, 2))
      && (Flags(out.result.errors.value, "email") <==> !EmailOk(f.email, isEmail))
      && (Flags(out.result.errors.value, "phone") <==> !PhoneOk(f.phone))
      && (Flags(out.result.errors.value, "subject") <==> !MinLengthOk(f.subject, 2))
      && (Flags(out.result.errors.value, "message") <==> !MinLengthOk(f.message, 10))
  {
  }

  /** In simulated mode nothing is mailed and the log carries all five fields
      verbatim. */
  lemma PreviewLogsSubmission(f: ContactForm, env: Env, isEmail: string -> bool, send: Mail -> SendOutcome)
    requires IsValid(f, isEmail) && IsPreviewOrDev(env)
    ensures var out := Submit(f, env, isEmail, send);
      && out.attempted == []
      && out.previewLog == Some([
           Entry("name", f.name.text), Entry("email", f.email.text), Entry("phone", f.phone.text),
           Entry("subject", f.subject.text), Entry("message", f.message.text)])
  {
  }

  /** In live mode the first mail goes to `EMAIL_USER`, answers to the
      visitor, is titled after the submitted subject, and carries every field,
      the message with its line feeds rendered as `<br>`. */
  lemma LivePrimaryMail(f: ContactForm, env: Env, isEmail: string -> bool, send: Mail -> SendOutcome)
    requires IsValid(f, isEmail) && !IsPreviewOrDev(env)
    ensures var m := Submit(f, env, isEmail, send).attempted[0];
      && m.to == env.emailUser
      && m.replyTo == f.email.text
      && m.subject == "Website Contact: " + f.subject.text
      && Entry("Name", f.name.text) in m.body
      && Entry("Email", f.email.text) in m.body
      && Entry("Phone", f.phone.text) in m.body
      && Entry("Subject", f.subject.text) in m.body
      && Entry("Message", ReplaceNewlines(f.message.text)) in m.body
      && m.listUnsubscribe == None
  {
  }

  /** A second mail is attempted exactly when `SEND_CONFIRMATION` is `"true"`
      and the first send went through; it goes to the visitor, answers to the
      business, and repeats the visitor's name, subject and message. */
  lemma ConfirmationIffFlag(f: ContactForm, env: Env, isEmail: string -> bool, send: Mail -> SendOutcome)
    requires IsValid(f, isEmail) && !IsPreviewOrDev(env)
    ensures var out := Submit(f, env, isEmail, send);
      && (|out.attempted| == 2 <==> ConfirmationEnabled(env) && send(out.attempted[0]) == Sent)
      && (|out.attempted| == 2 ==>
            && out.attempted[1].to == Some(f.email.text)
            && out.attempted[1].replyTo == BusinessAddress(env)
            && out.attempted[1].subject == ConfirmationSubject
            && Entry("Dear", f.name.text) in out.attempted[1].body
            && Entry("Subject", f.subject.text) in out.attempted[1].body
            && Entry("Message", ReplaceNewlines(f.message.text)) in out.attempted[1].body)
  {
  }

  /** A confirmation that throws after the notification went out still makes
      the whole submission fail, with the generic message and no `errors`. */
  lemma FailedConfirmationFailsSubmission(f: ContactForm, env: Env, isEmail: string -> bool, send: Mail -> SendOutcome)
    requires IsValid(f, isEmail) && !IsPreviewOrDev(env)
    requires var out := Submit(f, env, isEmail, send);
      |out.attempted| == 2 && send(out.attempted[1]) == Threw
    ensures send(Submit(f, env, isEmail, send).attempted[0]) == Sent
    ensures Submit(f, env, isEmail, send).result == FormResult(false, FailedMessage, None)
  {
  }

  /** A three-digit phone number is rejected with the USA-number message under
      the `phone` key. */
  lemma ShortPhoneRejected(f: ContactForm, env: Env, isEmail: string -> bool, send: Mail -> SendOutcome)
    requires f.phone == Present("123")
    ensures var out := Submit(f, env, isEmail, send);
      && !out.result.success
      && out.result.errors.Some?
      && Issue("phone", Says(PhoneRule.UsaPhoneMessage)) in out.result.errors.value
  {
    DigitsOfDigits("123");
    CollectKeeps(Checks(f, isEmail), 2, Issue("phone", Says(PhoneRule.UsaPhoneMessage)));
  }
}

=== FILE: contact_section.dfy ===
/** The client-side contact form (components/contact-section.tsx): the phone
    formatter applied as the visitor types, and the form's status. */
module ContactSection {
  import opened Wrappers
  import opened Text
  import opened PhoneRule
  import opened Forms
  import opened FormStatus

  /** Characters the formatter can emit. */
  predicate IsPhoneChar(c: char) {
    IsDigit(c) || c == '(' || c == ')' || c == ' ' || c == '-'
  }

  function Min(a: int, b: int): int {
    if a <= b then a else b
  }

  /** The first `n` digits of `d`, or all of them when there are fewer. */
  function Take(d: string, n: nat): (t: string)
    ensures |t| == Min(|d|, n) && t == d[..|t|]
  {
    d[..Min(|d|, n)]
  }

  /** The layout the formatter gives a string of digits: up to three digits
      as they are, up to six as `(XXX) XXX`, and from seven on as
      `(XXX) XXX-XXXX`, ignoring every digit past the tenth. */
  function Layout(d: string): string {
    if |d| <= 3 then d
    else if |d| <= 6 then "(" + (d[..3] + (") " + d[3..]))
    else "(" + (d[..3] + (") " + (d[3..6] + ("-" + d[6..Min(|d|, 10)]))))
  }

  /** The layout keeps exactly the first ten digits and adds only
      parentheses, spaces and hyphens. */
  lemma LayoutDigits(d: string)
    requires AllDigits(d)
    ensures DigitsOf(Layout(d)) == Take(d, 10)
    ensures forall i :: 0 <= i < |Layout(d)| ==> IsPhoneChar(Layout(d)[i])
  {
    if |d| <= 3 {
      DigitsOfDigits(d);
    } else if |d| <= 6 {
      DigitsFramed2("(", d[..3], ") ", d[3..]);
      assert d[..3] + d[3..] == d;
    } else {
      var last := d[6..Min(|d|, 10)];
      DigitsFramed3("(", d[..3], ") ", d[3..6], "-", last);
      assert d[..3] + (d[3..6] + last) == Take(d, 10);
    }
  }

  /** Dropping the digits past the tenth does not change the layout. */
  lemma LayoutOfTake(d: string)
    ensures Layout(Take(d, 10)) == Layout(d)
  {
    if |d| <= 10 {
      assert Take(d, 10) == d;
    } else {
      var e := Take(d, 10);
      assert |e| == 10 && e == d[..10];
      assert e[..3] == d[..3];
      assert e[3..6] == d[3..6];
      assert e[6..10] == d[6..10];
      assert e[6..Min(|e|, 10)] == d[6..Min(|d|, 10)];
      assert Layout(e) == "(" + (e[..3] + (") " + (e[3..6] + ("-" + e[6..Min(|e|, 10)]))));
      assert Layout(d) == "(" + (d[..3] + (") " + (d[3..6] + ("-" + d[6..Min(|d|, 10)]))));
    }
  }

  /** `formatPhoneNumber`: the layout of the input's digits. The result keeps
      exactly the first ten digits of the input and uses no character but
      digits, parentheses, space and hyphen. */
  function FormatPhoneNumber(value: string): (r: string)
    ensures DigitsOf(r) == Take(DigitsOf(value), 10)
    ensures forall i :: 0 <= i < |r| ==> IsPhoneChar(r[i])
  {
    var d := DigitsOf(value);
    LayoutDigits(d);
    Layout(d)
  }

  /** The three layouts, stated on the digits of the input. */
  lemma FormatCases(value: string)
    ensures var d := DigitsOf(value);
      && (|d| <= 3 ==> FormatPhoneNumber(value) == d)
      && (4 <= |d| <= 6 ==> FormatPhoneNumber(value) == "(" + d[..3] + ") " + d[3..])
      && (7 <= |d| ==> FormatPhoneNumber(value) == "(" + d[..3] + ") " + d[3..6] + "-" + d[6..Min(|d|, 10)])
  {
    var d := DigitsOf(value);
    assert FormatPhoneNumber(value) == Layout(d);
    if 4 <= |d| <= 6 {
      assert "(" + (d[..3] + (") " + d[3..])) == "(" + d[..3] + ") " + d[3..];
    } else if 7 <= |d| {
      var last := d[6..Min(|d|, 10)];
      assert "(" + (d[..3] + (") " + (d[3..6] + ("-" + last)))) == "(" + d[..3] + ") " + d[3..6] + "-" + last;
    }
  }

  /** Formatting an already formatted number changes nothing. */
  lemma FormatIdempotent(value: string)
    ensures FormatPhoneNumber(FormatPhoneNumber(value)) == FormatPhoneNumber(value)
  {
    var d := DigitsOf(value);
    var r := FormatPhoneNumber(value);
    assert DigitsOf(r) == Take(d, 10);
    LayoutOfTake(d);
  }

  /** The formatted value has at most ten digits. */
  lemma FormatKeepsAtMostTenDigits(value: string)
    ensures |DigitsOf(FormatPhoneNumber(value))| <= 10
    ensures |DigitsOf(value)| <= 10 ==> DigitsOf(FormatPhoneNumber(value)) == DigitsOf(value)
  {
  }

  /** The server accepts a formatted value exactly when the visitor typed at
      least ten digits; in particular any formatted value with ten digits
      passes. */
  lemma ServerAcceptsFormatted(value: string)
    ensures IsUsaPhone(FormatPhoneNumber(value)) <==> |DigitsOf(value)| >= 10
    ensures |DigitsOf(FormatPhoneNumber(value))| == 10 ==> IsUsaPhone(FormatPhoneNumber(value))
  {
  }

  /** A number typed with its country code, `1` and ten digits, loses its last
      digit: the field then holds a different number, which the server still
      accepts, although the typed one was valid too. */
  lemma CountryCodeLosesLastDigit(t: string)
    requires AllDigits(t) && |t| == 10
    ensures var value := "1" + t;
      && IsUsaPhone(value)
      && DigitsOf(FormatPhoneNumber(value)) == "1" + t[..9]
      && DigitsOf(FormatPhoneNumber(value)) != DigitsOf(value)
      && IsUsaPhone(FormatPhoneNumber(value))
  {
    var value := "1" + t;
    assert AllDigits(value);
    DigitsOfDigits(value);
    assert value[..10] == "1" + t[..9];
  }

  /** The part of the component state the model tracks: the form status and
      the phone field's controlled value. */
  datatype View = View(form: FormState, phone: string)

  const InitialView := View(Initial, "")
  const SubmittingMessage := "Sending your message..."

  /** What the visitor and the awaited server action can do. `ResetPressed` is
      the "Send Another Message" button, shown only on success. */
  datatype Event =
    | PhoneChanged(value: string)
    | SubmitPressed(formMounted: bool)
    | ActionSettled(outcome: CallOutcome)
    | ResetPressed

  /** `resetForm`: back to idle with an empty banner and an empty phone. */
  function ResetForm(v: View): (w: View)
    ensures w.form.status == Idle && w.form.message == "" && w.phone == ""
    ensures w == InitialView
  {
    View(FormState(Idle, "", None), "")
  }

  /** One event: the new view, and the route pushed, if any. */
  function Step(v: View, e: Event): (View, Option<string>) {
    match e
    case PhoneChanged(value) => (v.(phone := FormatPhoneNumber(value)), None)
    case SubmitPressed(mounted) => (v.(form := Begin(v.form, mounted, SubmittingMessage)), None)
    case ActionSettled(o) =>
      var (t, route) := Finish(v.form, o);
      (v.(form := t), route)
    case ResetPressed => if v.form.status == Success then (ResetForm(v), None) else (v, None)
  }

  /** The view after a sequence of events. */
  function Run(v: View, es: seq<Event>): View
    decreases |es|
  {
    if es == [] then v else Run(Step(v, es[0]).0, es[1..])
  }

  /** The phone field always holds a formatter output: formatting it again
      leaves it unchanged, so it never shows more than ten digits. */
  predicate PhoneSettled(v: View) {
    FormatPhoneNumber(v.phone) == v.phone
  }

  lemma {:induction false} RunKeepsPhoneFormatted(v: View, es: seq<Event>)
    requires PhoneSettled(v)
    ensures PhoneSettled(Run(v, es))
    ensures |DigitsOf(Run(v, es).phone)| <= 10
    decreases |es|
  {
    if es == [] {
      FormatKeepsAtMostTenDigits(v.phone);
    } else {
      var w := Step(v, es[0]).0;
      if es[0].PhoneChanged? {
        FormatIdempotent(es[0].value);
      } else if es[0].ResetPressed? {
        assert DigitsOf("") == "";
      }
      RunKeepsPhoneFormatted(w, es[1..]);
    }
  }

  /** One full `handleSubmit`: the status goes to `submitting`, which disables
      the button, then to success (and the thank-you page) when the action
      reports success, to an error showing the action's message and issues
      when it reports failure, and to the fixed unexpected-error banner when
      it throws. The phone value is untouched. */
  lemma HandleSubmit(v: View, o: CallOutcome)
    requires !SubmitDisabled(v.form)
    ensures var (w, r1) := Step(v, SubmitPressed(true));
      var (x, r2) := Step(w, ActionSettled(o));
      && w.form == FormState(Submitting, SubmittingMessage, None) && SubmitDisabled(w.form)
      && r1 == None
      && x.form == Settle(o) && !SubmitDisabled(x.form)
      && (x.form.status == Success <==> o.Returned? && o.result.success)
      && (r2 == Some(ThankYouPath) <==> o.Returned? && o.result.success)
      && (o.Returned? && !o.result.success ==>
            x.form == FormState(Error, o.result.message, o.result.errors))
      && (o.CallThrew? ==> x.form == FormState(Error, UnexpectedErrorMessage, None))
      && x.phone == v.phone
  {
  }

  /** While a submission is in flight, pressing submit again does nothing. */
  lemma DisabledWhileSubmitting(v: View, mounted: bool)
    requires v.form.status == Submitting
    ensures Step(v, SubmitPressed(mounted)) == (v, None)
  {
  }
}

=== FILE: enrollment_action.dfy ===
/** The enrollment-form server action `submitEnrollmentForm`
    (app/api/enrollment/action.ts). */
module EnrollmentAction {
  import opened Wrappers
  import opened Text
  import opened Environment
  import opened Mail
  import opened Forms

  /** The fields read from the submitted form. */
  datatype EnrollmentForm = EnrollmentForm(
    parentName: FieldValue, email: FieldValue, phone: FieldValue,
    childName: FieldValue, childDob: FieldValue, program: FieldValue,
    schedule: FieldValue, startDate: FieldValue, message: FieldValue)

  /** A validated request. */
  datatype EnrollmentRequest = EnrollmentRequest(
    parentName: string, email: string, phone: string,
    childName: string, childDob: string, program: string,
    schedule: string, startDate: string, message: string)

  const ParentNameMessage := "Parent name is required"
  const ChildNameMessage := "Child's name is required"
  const ChildDobMessage := "Child's date of birth is required"
  const ProgramMessage := "Please select a program"
  const ScheduleMessage := "Please select a schedule"
  const StartDateMessage := "Start date is required"
  const PreviewMessage := "Your enrollment request has been submitted successfully! (Preview Mode - Email not sent)"
  const SentMessage := "Your enrollment request has been submitted successfully!"
  const FailedMessage := "Failed to submit your enrollment request. Please try again later."
  const ConfirmationSubject := "Thank you for your enrollment request"
  const UnknownProgram := "Unknown Program"
  const UnknownSchedule := "Unknown Schedule"
  const AdditionalInformation := "Additional Information"

  /** The program codes the label switch recognises. */
  const KnownPrograms: set<string> := {"infants", "toddlers", "preschool", "mixed"}

  /** The schedule codes the label switch recognises. */
  const KnownSchedules: set<string> := {"fulltime", "parttime", "saturday"}

  /** `(formData.get("message") as string) || ""`: an absent message reads as
      the empty string. */
  function MessageText(v: FieldValue): (s: string)
    ensures v.Present? ==> s == v.text
    ensures v.Missing? ==> s == ""
  {
    match v
    case Present(s) => s
    case Missing => ""
  }

  /** Every rule of the enrollment schema holds; the message is optional. */
  predicate IsValid(f: EnrollmentForm, isEmail: string -> bool) {
    && MinLengthOk(f.parentName, 2)
    && EmailOk(f.email, isEmail)
    && PhoneOk(f.phone)
    && MinLengthOk(f.childName, 2)
    && MinLengthOk(f.childDob, 2)
    && MinLengthOk(f.program, 2)
    && MinLengthOk(f.schedule, 2)
    && MinLengthOk(f.startDate, 2)
  }

  /** The rules of the enrollment schema, in declaration order. */
  function Checks(f: EnrollmentForm, isEmail: string -> bool): seq<Check> {
    [Check("parentName", MinLengthIssues("parentName", f.parentName, 2, ParentNameMessage)),
     Check("email", EmailIssues("email", f.email, isEmail)),
     Check("phone", PhoneIssues("phone", f.phone)),
     Check("childName", MinLengthIssues("childName", f.childName, 2, ChildNameMessage)),
     Check("childDob", MinLengthIssues("childDob", f.childDob, 2, ChildDobMessage)),
     Check("program", MinLengthIssues("program", f.program, 2, ProgramMessage)),
     Check("schedule", MinLengthIssues("schedule", f.schedule, 2, ScheduleMessage)),
     Check("startDate", MinLengthIssues("startDate", f.startDate, 2, StartDateMessage))]
  }

  /** All issues of the enrollment schema, every rule checked: each failing
      rule contributes entries keyed by its own field, and only those. */
  function Issues(f: EnrollmentForm, isEmail: string -> bool): (r: seq<Issue>)
    ensures r == [] <==> IsValid(f, isEmail)
    ensures Flags(r, "parentName") <==> !MinLengthOk(f.parentName, 2)
    ensures Flags(r, "email") <==> !EmailOk(f.email, isEmail)
    ensures Flags(r, "phone") <==> !PhoneOk(f.phone)
    ensures Flags(r, "childName") <==> !MinLengthOk(f.childName, 2)
    ensures Flags(r, "childDob") <==> !MinLengthOk(f.childDob, 2)
    ensures Flags(r, "program") <==> !MinLengthOk(f.program, 2)
    ensures Flags(r, "schedule") <==> !MinLengthOk(f.schedule, 2)
    ensures Flags(r, "startDate") <==> !MinLengthOk(f.startDate, 2)
    ensures !Flags(r, "message")
  {
    ContactFlags(f, isEmail);
    ChildFlags(f, isEmail);
    Collect(Checks(f, isEmail))
  }

  /** The parent-contact rules are reported independently. */
  lemma ContactFlags(f: EnrollmentForm, isEmail: string -> bool)
    ensures var r := Collect(Checks(f, isEmail));
      && (Flags(r, "parentName") <==> !MinLengthOk(f.parentName, 2))
      && (Flags(r, "email") <==> !EmailOk(f.email, isEmail))
      && (Flags(r, "phone") <==> !PhoneOk(f.phone))
      && !Flags(r, "message")
  {
    var checks := Checks(f, isEmail);
    ChecksWellKeyed(f, isEmail);
    CollectFlagsAt(checks, 0);
    CollectFlagsAt(checks, 1);
    CollectFlagsAt(checks, 2);
    CollectFlags(checks, "message");
  }

  /** The child and program rules are reported independently. */
  lemma ChildFlags(f: EnrollmentForm, isEmail: string -> bool)
    ensures var r := Collect(Checks(f, isEmail));
      && (Flags(r, "childName") <==> !MinLengthOk(f.childName, 2))
      && (Flags(r, "childDob") <==> !MinLengthOk(f.childDob, 2))
      && (Flags(r, "program") <==> !MinLengthOk(f.program, 2))
      && (Flags(r, "schedule") <==> !MinLengthOk(f.schedule, 2))
      && (Flags(r, "startDate") <==> !MinLengthOk(f.startDate, 2))
  {
    var checks := Checks(f, isEmail);
    ChecksWellKeyed(f, isEmail);
    CollectFlagsAt(checks, 3);
    CollectFlagsAt(checks, 4);
    CollectFlagsAt(checks, 5);
    CollectFlagsAt(checks, 6);
    CollectFlagsAt(checks, 7);
  }

  lemma ChecksWellKeyed(f: EnrollmentForm, isEmail: string -> bool)
    ensures WellKeyed(Checks(f, isEmail))
  {
  }

  /** The parent-contact rules report their own wording under their own
      fields: the custom message exactly when a present value fails the rule,
      the schema library's type message exactly when the field is missing. */
  lemma ReportedContactMessages(f: EnrollmentForm, isEmail: string -> bool)
    ensures var r := Issues(f, isEmail);
      && (Issue("parentName", Says(ParentNameMessage)) in r <==> f.parentName.Present? && |f.parentName.text| < 2)
      && (Issue("parentName", WrongType) in r <==> f.parentName.Missing?)
      && (Issue("email", Says(EmailMessage)) in r <==> f.email.Present? && !isEmail(f.email.text))
      && (Issue("email", WrongType) in r <==> f.email.Missing?)
      && (Issue("phone", Says(PhoneRule.PhoneRequiredMessage)) in r <==> f.phone == Present(""))
      && (Issue("phone", Says(PhoneRule.UsaPhoneMessage)) in r <==> f.phone.Present? && !PhoneRule.IsUsaPhone(f.phone.text))
      && (Issue("phone", WrongType) in r <==> f.phone.Missing?)
  {
    var checks := Checks(f, isEmail);
    ChecksWellKeyed(f, isEmail);
    MinLengthReported(checks, 0, "parentName", f.parentName, 2, ParentNameMessage);
    EmailReported(checks, 1, "email", f.email, isEmail);
    PhoneReported(checks, 2, "phone", f.phone);
  }

  /** The child and program rules report their own wording under their own
      fields: the custom message exactly when a present value is too short,
      the type message exactly when the field is missing. */
  lemma ReportedChildMessages(f: EnrollmentForm, isEmail: string -> bool)
    ensures var r := Issues(f, isEmail);
      && (Issue("childName", Says(ChildNameMessage)) in r <==> f.childName.Present? && |f.childName.text| < 2)
      && (Issue("childName", WrongType) in r <==> f.childName.Missing?)
      && (Issue("childDob", Says(ChildDobMessage)) in r <==> f.childDob.Present? && |f.childDob.text| < 2)
      && (Issue("childDob", WrongType) in r <==> f.childDob.Missing?)
  {
    var checks := Checks(f, isEmail);
    ChecksWellKeyed(f, isEmail);
    MinLengthReported(checks, 3, "childName", f.childName, 2, ChildNameMessage);
    MinLengthReported(checks, 4, "childDob", f.childDob, 2, ChildDobMessage);
  }

  /** The program-detail rules report their own wording under their own
      fields, in the same way. */
  lemma ReportedProgramMessages(f: EnrollmentForm, isEmail: string -> bool)
    ensures var r := Issues(f, isEmail);
      && (Issue("program", Says(ProgramMessage)) in r <==> f.program.Present? && |f.program.text| < 2)
      && (Issue("program", WrongType) in r <==> f.program.Missing?)
      && (Issue("schedule", Says(ScheduleMessage)) in r <==> f.schedule.Present? && |f.schedule.text| < 2)
      && (Issue("schedule", WrongType) in r <==> f.schedule.Missing?)
      && (Issue("startDate", Says(StartDateMessage)) in r <==> f.startDate.Present? && |f.startDate.text| < 2)
      && (Issue("startDate", WrongType) in r <==> f.startDate.Missing?)
  {
    var checks := Checks(f, isEmail);
    ChecksWellKeyed(f, isEmail);
    MinLengthReported(checks, 5, "program", f.program, 2, ProgramMessage);
    MinLengthReported(checks, 6, "schedule", f.schedule, 2, ScheduleMessage);
    MinLengthReported(checks, 7, "startDate", f.startDate, 2, StartDateMessage);
  }

  /** `enrollmentFormSchema.parse`: the typed request, or every issue found. */
  function Parse(f: EnrollmentForm, isEmail: string -> bool): (r: Result<EnrollmentRequest, seq<Issue>>)
    ensures r.Ok? <==> IsValid(f, isEmail)
    ensures r.Ok? ==> r.value == EnrollmentRequest(
      f.parentName.text, f.email.text, f.phone.text, f.childName.text, f.childDob.text,
      f.program.text, f.schedule.text, f.startDate.text, MessageText(f.message))
    ensures r.Err? ==> r.error == Issues(f, isEmail) && r.error != []
  {
    var issues := Issues(f, isEmail);
    if issues != [] then Err(issues)
    else Ok(EnrollmentRequest(
      f.parentName.text, f.email.text, f.phone.text, f.childName.text, f.childDob.text,
      f.program.text, f.schedule.text, f.startDate.text, MessageText(f.message)))
  }

  /** The display label of a program code; an unrecognised code is labelled,
      not rejected. */
  function ProgramLabel(code: string): (name: string)
    ensures name == UnknownProgram <==> code !in KnownPrograms
  {
    if code == "infants" then "Infant Care (6 months - 18 months)"
    else if code == "toddlers" then "Toddler Care (18 months - 3 years)"
    else if code == "preschool" then "Preschooler Care (3 - 6 years)"
    else if code == "mixed" then "Multiple Age Groups (for siblings)"
    else UnknownProgram
  }

  /** The program code a label was made from, if it is one of the four. */
  function ProgramCode(name: string): Option<string> {
    if name == "Infant Care (6 months - 18 months)" then Some("infants")
    else if name == "Toddler Care (18 months - 3 years)" then Some("toddlers")
    else if name == "Preschooler Care (3 - 6 years)" then Some("preschool")
    else if name == "Multiple Age Groups (for siblings)" then Some("mixed")
    else None
  }

  /** Program labels identify their codes: the label of a recognised code
      reads back to that code, and a label that reads back came from it. */
  lemma ProgramLabelRoundTrip(code: string, name: string)
    ensures code in KnownPrograms ==> ProgramCode(ProgramLabel(code)) == Some(code)
    ensures ProgramCode(name) == Some(code) ==> code in KnownPrograms && ProgramLabel(code) == name
  {
  }

  /** The display label of a schedule code, with the same fallback policy. */
  function ScheduleLabel(code: string): (name: string)
    ensures name == UnknownSchedule <==> code !in KnownSchedules
  {
    if code == "fulltime" then "Full-time (Monday-Friday)"
    else if code == "parttime" then "Part-time (Select days)"
    else if code == "saturday" then "Saturday care"
    else UnknownSchedule
  }

  /** The schedule code a label was made from, if it is one of the three. */
  function ScheduleCode(name: string): Option<string> {
    if name == "Full-time (Monday-Friday)" then Some("fulltime")
    else if name == "Part-time (Select days)" then Some("parttime")
    else if name == "Saturday care" then Some("saturday")
    else None
  }

  /** Schedule labels identify their codes, in both directions. */
  lemma ScheduleLabelRoundTrip(code: string, name: string)
    ensures code in KnownSchedules ==> ScheduleCode(ScheduleLabel(code)) == Some(code)
    ensures ScheduleCode(name) == Some(code) ==> code in KnownSchedules && ScheduleLabel(code) == name
  {
  }

  /** The record logged instead of mailing in simulated mode: the program
      appears as its label, the schedule as its raw code. */
  function PreviewLog(q: EnrollmentRequest): seq<Entry> {
    [Entry("parentName", q.parentName), Entry("email", q.email), Entry("phone", q.phone),
     Entry("childName", q.childName), Entry("childDob", q.childDob),
     Entry("program", ProgramLabel(q.program)), Entry("schedule", q.schedule),
     Entry("startDate", q.startDate), Entry("message", q.message)]
  }

  /** The fixed sections of the notification: parent, child and program
      details. `formatDate` is the locale-dependent `toLocaleDateString`
      rendering of a date field. */
  function Details(q: EnrollmentRequest, formatDate: string -> string): seq<Entry> {
    [Entry("Parent Name", q.parentName), Entry("Email", q.email), Entry("Phone", q.phone),
     Entry("Child Name", q.childName), Entry("Date of Birth", formatDate(q.childDob)),
     Entry("Program", ProgramLabel(q.program)), Entry("Schedule", ScheduleLabel(q.schedule)),
     Entry("Desired Start Date", formatDate(q.startDate))]
  }

  /** The optional section, rendered only for a non-empty message. */
  function Additional(q: EnrollmentRequest): seq<Entry> {
    if q.message != "" then [Entry(AdditionalInformation, ReplaceNewlines(q.message))] else []
  }

  /** The notification to the business. */
  function PrimaryMail(q: EnrollmentRequest, env: Env, formatDate: string -> string): Mail {
    Mail(SenderName, BusinessAddress(env), env.emailUser, q.email,
         "New Enrollment Request: " + q.childName, Details(q, formatDate) + Additional(q), None)
  }

  /** Some entry of `body` is filed under `key`. */
  predicate HasKey(body: seq<Entry>, key: string) {
    exists i :: 0 <= i < |body| && body[i].key == key
  }

  /** The notification has an additional-information section exactly when the
      message is non-empty. */
  lemma AdditionalIffMessage(q: EnrollmentRequest, env: Env, formatDate: string -> string)
    ensures HasKey(PrimaryMail(q, env, formatDate).body, AdditionalInformation) <==> q.message != ""
  {
    var d := Details(q, formatDate);
    var a := Additional(q);
    var body: seq<Entry> := d + a;
    assert !HasKey(d, AdditionalInformation);
    if HasKey(body, AdditionalInformation) {
      var i :| 0 <= i < |body| && body[i].key == AdditionalInformation;
      assert i >= |d|;
    }
    if q.message != "" {
      assert body[|d|].key == AdditionalInformation;
    }
  }

  /** The acknowledgement to the parent. */
  function ConfirmationMail(q: EnrollmentRequest, env: Env, formatDate: string -> string): Mail {
    Mail(SenderName, BusinessAddress(env), Some(q.email), BusinessAddress(env),
         ConfirmationSubject,
         [Entry("Dear", q.parentName), Entry("Child", q.childName),
          Entry("Program", ProgramLabel(q.program)),
          Entry("Desired Start Date", formatDate(q.startDate))],
         Some("<mailto:" + Interpolate(env.emailUser) + "?subject=Unsubscribe>"))
  }

  /** `submitEnrollmentForm`, with the email check, the date rendering and the
      transport as parameters. */
  function Submit(f: EnrollmentForm, env: Env, isEmail: string -> bool,
                  formatDate: string -> string, send: Mail -> SendOutcome): (out: Submission)
    ensures out.result.errors.Some? <==> !IsValid(f, isEmail)
    ensures !IsValid(f, isEmail) ==>
      && !out.result.success && out.result.message == CheckInputsMessage
      && out.attempted == [] && out.previewLog == None
    ensures IsValid(f, isEmail) && IsPreviewOrDev(env) ==>
      out.result == FormResult(true, PreviewMessage, None) && out.attempted == []
    ensures IsValid(f, isEmail) && !IsPreviewOrDev(env) ==>
      && 1 <= |out.attempted| <= 2
      && out.previewLog == None
      && (out.result.success <==> forall i :: 0 <= i < |out.attempted| ==> send(out.attempted[i]) == Sent)
      && out.result.message == (if out.result.success then SentMessage else FailedMessage)
  {
    match Parse(f, isEmail)
    case Err(issues) => Rejected(issues)
    case Ok(q) =>
      if IsPreviewOrDev(env) then
        Submission(FormResult(true, PreviewMessage, None), [], Some(PreviewLog(q)))
      else
        var confirmation := if ConfirmationEnabled(env) then Some(ConfirmationMail(q, env, formatDate)) else None;
        Dispatched(Deliver(PrimaryMail(q, env, formatDate), confirmation, send), SentMessage, FailedMessage)
  }

  /** A rejected submission lists, for each field, an entry exactly when that
      field's rule failed; the optional message is never flagged. */
  lemma RejectionReportsEachRule(f: EnrollmentForm, env: Env, isEmail: string -> bool,
                                 formatDate: string -> string, send: Mail -> SendOutcome)
    requires !IsValid(f, isEmail)
    ensures var out := Submit(f, env, isEmail, formatDate, send);
      && out.result.errors.Some?
      && var es := out.result.errors.value;
      && (Flags(es, "parentName") <==> !MinLengthOk(f.parentName, 2))
      && (Flags(es, "email") <==> !EmailOk(f.email, isEmail))
      && (Flags(es, "phone") <==> !PhoneOk(f.phone))
      && (Flags(es, "childName") <==> !MinLengthOk(f.childName, 2))
      && (Flags(es, "childDob") <==> !MinLengthOk(f.childDob, 2))
      && (Flags(es, "program") <==> !MinLengthOk(f.program, 2))
      && (Flags(es, "schedule") <==> !MinLengthOk(f.schedule, 2))
      && (Flags(es, "startDate") <==> !MinLengthOk(f.startDate, 2))
      && !Flags(es, "message")
  {
  }

  /** Whether a submission is accepted never depends on its message. */
  lemma MessageIsOptional(f: EnrollmentForm, message: FieldValue, isEmail: string -> bool)
    ensures IsValid(f, isEmail) <==> IsValid(f.(message := message), isEmail)
  {
  }

  /** In simulated mode nothing is mailed; the log names the program by its
      label but keeps the raw schedule code. */
  lemma PreviewLogsSubmission(f: EnrollmentForm, env: Env, isEmail: string -> bool,
                              formatDate: string -> string, send: Mail -> SendOutcome)
    requires IsValid(f, isEmail) && IsPreviewOrDev(env)
    ensures var out := Submit(f, env, isEmail, formatDate, send);
      && out.attempted == []
      && out.previewLog.Some?
      && Entry("parentName", f.parentName.text) in out.previewLog.value
      && Entry("email", f.email.text) in out.previewLog.value
      && Entry("phone", f.phone.text) in out.previewLog.value
      && Entry("childName", f.childName.text) in out.previewLog.value
      && Entry("childDob", f.childDob.text) in out.previewLog.value
      && Entry("program", ProgramLabel(f.program.text)) in out.previewLog.value
      && Entry("schedule", f.schedule.text) in out.previewLog.value
      && Entry("startDate", f.startDate.text) in out.previewLog.value
      && Entry("message", MessageText(f.message)) in out.previewLog.value
  {
  }

  /** In live mode the first mail goes to `EMAIL_USER`, answers to the
      parent, is titled after the child, carries the parent and child details
      with both dates rendered by `formatDate`, names program and schedule by
      their labels, and has an additional-information section exactly when the
      message is non-empty. */
  lemma LivePrimaryMail(f: EnrollmentForm, env: Env, isEmail: string -> bool,
                        formatDate: string -> string, send: Mail -> SendOutcome)
    requires IsValid(f, isEmail) && !IsPreviewOrDev(env)
    ensures var m := Submit(f, env, isEmail, formatDate, send).attempted[0];
      && m.to == env.emailUser
      && m.replyTo == f.email.text
      && m.subject == "New Enrollment Request: " + f.childName.text
      && Entry("Parent Name", f.parentName.text) in m.body
      && Entry("Email", f.email.text) in m.body
      && Entry("Phone", f.phone.text) in m.body
      && Entry("Child Name", f.childName.text) in m.body
      && Entry("Date of Birth", formatDate(f.childDob.text)) in m.body
      && Entry("Program", ProgramLabel(f.program.text)) in m.body
      && Entry("Schedule", ScheduleLabel(f.schedule.text)) in m.body
      && Entry("Desired Start Date", formatDate(f.startDate.text)) in m.body
      && (HasKey(m.body, AdditionalInformation) <==> MessageText(f.message) != "")
      && (MessageText(f.message) != "" ==>
            Entry(AdditionalInformation, ReplaceNewlines(MessageText(f.message))) in m.body)
  {
    var q := Parse(f, isEmail).value;
    AdditionalIffMessage(q, env, formatDate);
    var m := Submit(f, env, isEmail, formatDate, send).attempted[0];
    assert m == PrimaryMail(q, env, formatDate);
    var d := Details(q, formatDate);
    assert m.body == d + Additional(q);
    assert d[0] in m.body && d[1] in m.body && d[2] in m.body && d[3] in m.body;
    assert d[4] in m.body && d[5] in m.body && d[6] in m.body && d[7] in m.body;
  }

  /** A second mail is attempted exactly when `SEND_CONFIRMATION` is `"true"`
      and the first send went through; it goes to the parent, answers to the
      business, and greets the parent and summarises the child, the program
      label and the start date. */
  lemma ConfirmationIffFlag(f: EnrollmentForm, env: Env, isEmail: string -> bool,
                            formatDate: string -> string, send: Mail -> SendOutcome)
    requires IsValid(f, isEmail) && !IsPreviewOrDev(env)
    ensures var out := Submit(f, env, isEmail, formatDate, send);
      && (|out.attempted| == 2 <==> ConfirmationEnabled(env) && send(out.attempted[0]) == Sent)
      && (|out.attempted| == 2 ==>
            && out.attempted[1].to == Some(f.email.text)
            && out.attempted[1].replyTo == BusinessAddress(env)
            && out.attempted[1].subject == ConfirmationSubject
            && Entry("Dear", f.parentName.text) in out.attempted[1].body
            && Entry("Child", f.childName.text) in out.attempted[1].body
            && Entry("Program", ProgramLabel(f.program.text)) in out.attempted[1].body
            && Entry("Desired Start Date", formatDate(f.startDate.text)) in out.attempted[1].body)
  {
  }

  /** A confirmation that throws after the notification went out still makes
      the whole submission fail, with the generic message and no `errors`. */
  lemma FailedConfirmationFailsSubmission(f: EnrollmentForm, env: Env, isEmail: string -> bool,
                                          formatDate: string -> string, send: Mail -> SendOutcome)
    requires IsValid(f, isEmail) && !IsPreviewOrDev(env)
    requires var out := Submit(f, env, isEmail, formatDate, send);
      |out.attempted| == 2 && send(out.attempted[1]) == Threw
    ensures send(Submit(f, env, isEmail, formatDate, send).attempted[0]) == Sent
    ensures Submit(f, env, isEmail, formatDate, send).result == FormResult(false, FailedMessage, None)
  {
  }

  /** An unrecognised program code does not fail the submission: the mail
      names it "Unknown Program", while an offered code is named by its own
      label, never by the fallback. */
  lemma ProgramFallbackInMail(f: EnrollmentForm, env: Env, isEmail: string -> bool,
                              formatDate: string -> string, send: Mail -> SendOutcome)
    requires IsValid(f, isEmail) && !IsPreviewOrDev(env)
    ensures f.program.text !in KnownPrograms ==>
      Entry("Program", UnknownProgram) in Submit(f, env, isEmail, formatDate, send).attempted[0].body
    ensures f.program.text in KnownPrograms ==>
      && Entry("Program", ProgramLabel(f.program.text)) in Submit(f, env, isEmail, formatDate, send).attempted[0].body
      && ProgramLabel(f.program.text) != UnknownProgram
  {
    LivePrimaryMail(f, env, isEmail, formatDate, send);
  }
}

=== FILE: enrollment_process.dfy ===
/** The animated enrollment steps (components/animated-enrollment-process.tsx):
    the five-step table, the timer that advances the active step, the step
    buttons and the progress bar. */
module EnrollmentProcess {
  import opened Wrappers
  import opened Modular

  /** A step of the process. Icons and colours are left out. */
  datatype ProcessStep = ProcessStep(id: int, title: string, description: string)

  /** `steps`, in display order. */
  const Steps: seq<ProcessStep> := [
    ProcessStep(1, "Submit Enrollment Request",
      "Fill out our online enrollment form with your information and preferences."),
    ProcessStep(2, "Schedule a Tour",
      "Visit our facility, meet our staff, and see our learning environment firsthand."),
    ProcessStep(3, "Complete Registration",
      "Submit required documents and complete the registration process."),
    ProcessStep(4, "Meet & Greet",
      "Bring your child for a short visit to meet teachers and explore the classroom."),
    ProcessStep(5, "Welcome to Our Family!",
      "Your child's first day at Sunshine Fitsum Daycare begins!")
  ]

  /** The step shown first. */
  const InitialStep := 1

  /** JavaScript's `%`, which truncates toward zero, for a positive divisor. */
  function JsRem(a: int, n: int): (r: int)
    requires n > 0
    ensures a >= 0 ==> 0 <= r < n
    ensures a < 0 ==> -n < r <= 0
    ensures a >= 0 ==> r == a % n
  {
    if a >= 0 then a % n else -((-a) % n)
  }

  /** The timer's update of the active step. */
  function Tick(prev: int): int {
    JsRem(prev, |Steps|) + 1
  }

  /** On the steps, the timer moves to the next step and wraps from the last
      to the first. */
  lemma TickAdvances(prev: int)
    requires 1 <= prev <= |Steps|
    ensures 1 <= Tick(prev) <= |Steps|
    ensures prev < |Steps| ==> Tick(prev) == prev + 1
    ensures prev == |Steps| ==> Tick(prev) == 1
  {
    if prev < |Steps| {
      SmallMod(prev, |Steps|);
    } else {
      SelfMod(|Steps|);
    }
  }

  function Ticks(a: int, n: nat): int
    decreases n
  {
    if n == 0 then a else Ticks(Tick(a), n - 1)
  }

  /** `n` ticks from step `a` land on step `(a - 1 + n) % 5 + 1`. */
  lemma {:induction false} TicksPosition(a: int, n: nat)
    requires 1 <= a <= |Steps|
    ensures Ticks(a, n) == (a - 1 + n) % |Steps| + 1
    decreases n
  {
    if n == 0 {
      SmallMod(a - 1, |Steps|);
    } else {
      TickAdvances(a);
      TicksPosition(Tick(a), n - 1);
      ForwardThenMore(a - 1, |Steps|, n - 1);
    }
  }

  /** Five ticks bring every step back to itself. */
  lemma FiveTicksComeBack(a: int)
    requires 1 <= a <= |Steps|
    ensures Ticks(a, |Steps|) == a
  {
    TicksPosition(a, |Steps|);
    AddMod(a - 1, |Steps|);
    SmallMod(a - 1, |Steps|);
  }

  /** What changes the active step: the timer, and a click on step button
      `k`. */
  datatype Event = Timer | Clicked(k: nat)

  function Step(active: int, e: Event): int {
    match e
    case Timer => Tick(active)
    case Clicked(k) => if k < |Steps| then Steps[k].id else active
  }

  function Run(active: int, es: seq<Event>): int
    decreases |es|
  {
    if es == [] then active else Run(Step(active, es[0]), es[1..])
  }

  /** Step `k` of the table has id `k + 1`. */
  lemma StepIds()
    ensures forall k :: 0 <= k < |Steps| ==> Steps[k].id == k + 1
  {
  }

  /** Whatever happens, the active step stays in 1..5. */
  lemma {:induction false} RunStaysInRange(active: int, es: seq<Event>)
    requires 1 <= active <= |Steps|
    ensures 1 <= Run(active, es) <= |Steps|
    decreases |es|
  {
    if es != [] {
      if es[0].Timer? {
        TickAdvances(active);
      } else {
        StepIds();
      }
      RunStaysInRange(Step(active, es[0]), es[1..]);
    }
  }

  /** The progress bar's width in percent. */
  function ProgressWidth(active: int): (w: int)
    ensures 1 <= active <= |Steps| ==> 0 <= w <= 100
    ensures active == 1 ==> w == 0
    ensures active == |Steps| ==> w == 100
  {
    (active - 1) * 25
  }

  /** Each tick widens the bar by a quarter, until the wrap back to the first
      step empties it. */
  lemma ProgressFollowsTick(a: int)
    requires 1 <= a <= |Steps|
    ensures a < |Steps| ==> ProgressWidth(Tick(a)) == ProgressWidth(a) + 25
    ensures a == |Steps| ==> ProgressWidth(Tick(a)) == 0
  {
    TickAdvances(a);
  }

  /** `find` by id for the caption under the steps. */
  function FindStep(steps: seq<ProcessStep>, id: int): (r: Option<ProcessStep>)
    ensures r.None? <==> forall k :: 0 <= k < |steps| ==> steps[k].id != id
    ensures r.Some? ==> r.value in steps && r.value.id == id
    decreases |steps|
  {
    if steps == [] then None
    else if steps[0].id == id then Some(steps[0])
    else FindStep(steps[1..], id)
  }

  /** From the first step, after any events, the caption lookup finds the
      active step. */
  lemma CaptionAlwaysFound(es: seq<Event>)
    ensures FindStep(Steps, Run(InitialStep, es)).Some?
    ensures FindStep(Steps, Run(InitialStep, es)).value.id == Run(InitialStep, es)
  {
    var a := Run(InitialStep, es);
    RunStaysInRange(InitialStep, es);
    StepIds();
    assert Steps[a - 1].id == a;
  }
}

=== FILE: enrollment_section.dfy ===
/** The client-side enrollment form (components/enrollment-section.tsx): its
    own copy of the phone formatter, the option codes it offers, the form's
    status and the inline thank-you panel. */
module EnrollmentSection {
  import opened Wrappers
  import opened Text
  import opened FormStatus
  import ContactSection
  import EnrollmentAction

  /** This component's copy of the formatter, written out again as the
      component does. */
  function FormatPhoneNumber(value: string): string {
    var d := DigitsOf(value);
    if |d| <= 3 then d
    else if |d| <= 6 then "(" + (d[..3] + (") " + d[3..]))
    else "(" + (d[..3] + (") " + (d[3..6] + ("-" + d[6..ContactSection.Min(|d|, 10)]))))
  }

  /** The two copies of the formatter are the same function. */
  lemma SameFormatter(value: string)
    ensures FormatPhoneNumber(value) == ContactSection.FormatPhoneNumber(value)
  {
  }

  /** The program codes of the program select, in display order. */
  const OfferedPrograms: seq<string> := ["infants", "toddlers", "preschool", "mixed"]

  /** The schedule codes of the schedule radio group, in display order. */
  const OfferedSchedules: seq<string> := ["fulltime", "parttime", "saturday"]

  /** The schedule preselected when the form appears. */
  const DefaultSchedule := "fulltime"

  const SubmittingMessage := "Submitting your enrollment request..."

  /** Every option the form offers reaches a named label on the server, and
      so does the preselected schedule. */
  lemma OfferedOptionsAreKnown()
    ensures forall i :: 0 <= i < |OfferedPrograms| ==>
      EnrollmentAction.ProgramLabel(OfferedPrograms[i]) != EnrollmentAction.UnknownProgram
    ensures forall i :: 0 <= i < |OfferedSchedules| ==>
      EnrollmentAction.ScheduleLabel(OfferedSchedules[i]) != EnrollmentAction.UnknownSchedule
    ensures EnrollmentAction.ScheduleLabel(DefaultSchedule) != EnrollmentAction.UnknownSchedule
    ensures DefaultSchedule in OfferedSchedules
  {
    forall i | 0 <= i < |OfferedPrograms|
      ensures EnrollmentAction.ProgramLabel(OfferedPrograms[i]) != EnrollmentAction.UnknownProgram
    {
      assert OfferedPrograms[i] in EnrollmentAction.KnownPrograms;
    }
    forall i | 0 <= i < |OfferedSchedules|
      ensures EnrollmentAction.ScheduleLabel(OfferedSchedules[i]) != EnrollmentAction.UnknownSchedule
    {
      assert OfferedSchedules[i] in EnrollmentAction.KnownSchedules;
    }
    assert DefaultSchedule == OfferedSchedules[0];
  }

  /** The component state the model tracks: the form status, the phone
      field and the `formSubmitted` flag that selects the thank-you panel. */
  datatype View = View(form: FormState, phone: string, formSubmitted: bool)

  const InitialView := View(Initial, "", false)

  /** `SubmitAnother` is the panel's "Submit Another Request" button, present
      only while the panel is shown. */
  datatype Event =
    | PhoneChanged(value: string)
    | SubmitPressed(formMounted: bool)
    | ActionSettled(outcome: CallOutcome)
    | SubmitAnother

  function Step(v: View, e: Event): (View, Option<string>) {
    match e
    case PhoneChanged(value) => (v.(phone := FormatPhoneNumber(value)), None)
    case SubmitPressed(mounted) => (v.(form := Begin(v.form, mounted, SubmittingMessage)), None)
    case ActionSettled(o) =>
      var (t, route) := Finish(v.form, o);
      (v.(form := t), route)
    case SubmitAnother =>
      if v.formSubmitted then (v.(formSubmitted := false, phone := ""), None) else (v, None)
  }

  function Run(v: View, es: seq<Event>): View
    decreases |es|
  {
    if es == [] then v else Run(Step(v, es[0]).0, es[1..])
  }

  /** Nothing ever sets `formSubmitted`: from the initial view, after any
      events, the thank-you panel stays hidden and the form stays shown. */
  lemma {:induction false} ThankYouPanelUnreachable(v: View, es: seq<Event>)
    requires !v.formSubmitted
    ensures !Run(v, es).formSubmitted
    decreases |es|
  {
    if es != [] {
      var w := Step(v, es[0]).0;
      assert !w.formSubmitted;
      ThankYouPanelUnreachable(w, es[1..]);
    }
  }

  /** One full `handleSubmit`, as in the contact form, with the enrollment
      banner text. */
  lemma HandleSubmit(v: View, o: CallOutcome)
    requires !SubmitDisabled(v.form)
    ensures var (w, r1) := Step(v, SubmitPressed(true));
      var (x, r2) := Step(w, ActionSettled(o));
      && w.form == FormState(Submitting, SubmittingMessage, None) && SubmitDisabled(w.form)
      && r1 == None
      && x.form == Settle(o) && !SubmitDisabled(x.form)
      && (x.form.status == Success <==> o.Returned? && o.result.success)
      && (r2 == Some(ThankYouPath) <==> o.Returned? && o.result.success)
      && (o.Returned? && !o.result.success ==>
            x.form == FormState(Error, o.result.message, o.result.errors))
      && (o.CallThrew? ==> x.form == FormState(Error, UnexpectedErrorMessage, None))
      && x.formSubmitted == v.formSubmitted
  {
  }

  /** The button is disabled exactly in the steps between a submit and its
      settlement: a submit while disabled changes nothing, and a settlement
      always enables it again. */
  lemma ButtonLock(v: View, mounted: bool, o: CallOutcome)
    ensures SubmitDisabled(v.form) ==> Step(v, SubmitPressed(mounted)) == (v, None)
    ensures SubmitDisabled(Step(v, SubmitPressed(mounted)).0.form) <==> mounted || SubmitDisabled(v.form)
    ensures SubmitDisabled(v.form) ==> !SubmitDisabled(Step(v, ActionSettled(o)).0.form)
  {
  }
}

=== FILE: environment.dfy ===
/** The process environment the server actions and the SEO helpers read,
    passed in as one immutable record instead of `process.env`. */
module Environment {
  import opened Wrappers

  /** Every variable the modelled code reads; `None` is an unset variable. */
  datatype Env = Env(
    nodeEnv: Option<string>,            // NODE_ENV
    vercelEnv: Option<string>,          // VERCEL_ENV
    vercelUrl: Option<string>,          // VERCEL_URL
    publicVercelUrl: Option<string>,    // NEXT_PUBLIC_VERCEL_URL
    emailUser: Option<string>,          // EMAIL_USER
    emailAppPassword: Option<string>,   // EMAIL_APP_PASSWORD
    sendConfirmation: Option<string>    // SEND_CONFIRMATION
  )

  const DefaultBusinessAddress := "fitsum@sunshinefitsumdaycare.com"

  /** JavaScript truthiness of an environment value: set and non-empty. */
  predicate Truthy(v: Option<string>) {
    v.Some? && v.value != ""
  }

  /** `isPreviewOrDev`: development, a preview deployment, or no usable mail
      password all select simulated dispatch. */
  predicate IsPreviewOrDev(env: Env) {
    || env.nodeEnv == Some("development")
    || env.vercelEnv == Some("preview")
    || !Truthy(env.emailAppPassword)
  }

  /** The confirmation mail is sent only when the flag is exactly `"true"`. */
  predicate ConfirmationEnabled(env: Env) {
    env.sendConfirmation == Some("true")
  }

  /** `process.env.EMAIL_USER || "fitsum@sunshinefitsumdaycare.com"`: the
      sender and reply address of the business. */
  function BusinessAddress(env: Env): (a: string)
    ensures a != ""
    ensures a == DefaultBusinessAddress || env.emailUser == Some(a)
    ensures Truthy(env.emailUser) ==> a == env.emailUser.value
    ensures !Truthy(env.emailUser) ==> a == DefaultBusinessAddress
  {
    if Truthy(env.emailUser) then env.emailUser.value else DefaultBusinessAddress
  }

  /** A template literal renders an unset variable as `undefined`. */
  function Interpolate(v: Option<string>): string {
    v.GetOr("undefined")
  }
}

=== FILE: form_status.dfy ===
/** The status both client forms keep while a submission is in flight
    (components/contact-section.tsx, components/enrollment-section.tsx). */
module FormStatus {
  import opened Wrappers
  import opened Forms

  datatype Status = Idle | Submitting | Success | Error

  /** `formState`: the status, the banner message and the issues shown. */
  datatype FormState = FormState(status: Status, message: string, errors: Option<seq<Issue>>)

  const Initial := FormState(Idle, "", None)
  const UnexpectedErrorMessage := "An unexpected error occurred. Please try again."
  const ThankYouPath := "/thank-you"

  /** How the awaited server action ended: it returned a result, or threw. */
  datatype CallOutcome = Returned(result: FormResult) | CallThrew

  /** The submit button is disabled while a submission is in flight. */
  predicate SubmitDisabled(s: FormState) {
    s.status == Submitting
  }

  /** The status after the awaited action: success only for a returned result
      that reports success; a reported failure shows the action's message and
      issues; a throw shows the fixed unexpected-error banner. */
  function Settle(o: CallOutcome): (s: FormState)
    ensures s.status == Success <==> o.Returned? && o.result.success
    ensures s.status == Success || s.status == Error
    ensures o.Returned? ==> s.message == o.result.message
    ensures o.Returned? && !o.result.success ==> s.errors == o.result.errors
    ensures s.status == Success ==> s.errors == None
    ensures o.CallThrew? ==> s == FormState(Error, UnexpectedErrorMessage, None)
  {
    match o
    case CallThrew => FormState(Error, UnexpectedErrorMessage, None)
    case Returned(r) =>
      if r.success then FormState(Success, r.message, None)
      else FormState(Error, r.message, r.errors)
  }

  /** The first half of `handleSubmit`: with the form mounted and the button
      enabled, the status becomes `submitting` with the given banner;
      otherwise nothing happens. */
  function Begin(s: FormState, formMounted: bool, submittingMessage: string): (t: FormState)
    ensures formMounted && !SubmitDisabled(s) ==> t == FormState(Submitting, submittingMessage, None)
    ensures !formMounted || SubmitDisabled(s) ==> t == s
    ensures SubmitDisabled(t)  <==> formMounted || SubmitDisabled(s)
  {
    if formMounted && !SubmitDisabled(s) then FormState(Submitting, submittingMessage, None) else s
  }

  /** The second half of `handleSubmit`, once the awaited action settles: the
      settled status, and the thank-you route pushed on success. A settlement
      with no submission in flight changes nothing. */
  function Finish(s: FormState, o: CallOutcome): (r: (FormState, Option<string>))
    ensures s.status == Submitting ==> r.0 == Settle(o) && !SubmitDisabled(r.0)
    ensures s.status != Submitting ==> r == (s, None)
    ensures r.1 == Some(ThankYouPath) <==> s.status == Submitting && r.0.status == Success
    ensures r.1 != None ==> r.1 == Some(ThankYouPath)
  {
    if s.status != Submitting then (s, None)
    else
      var t := Settle(o);
      (t, if t.status == Success then Some(ThankYouPath) else None)
  }
}

=== FILE: forms.dfy ===
/** What the two server actions share: raw form fields, the schema rules and
    the issues they raise, and the `{success, message, errors?}` reply. */
module Forms {
  import opened Wrappers
  import opened PhoneRule
  import opened Mail

  /** `formData.get(name) as string`: the submitted text, or `null` when the
      form carried no such field. */
  datatype FieldValue = Present(text: string) | Missing

  /** The wording of an issue. `WrongType` stands for the schema library's own
      message for a value that is not a string; its wording is not modelled. */
  datatype IssueText = Says(text: string) | WrongType

  /** One `{field, message}` entry of a failed validation. */
  datatype Issue = Issue(field: string, message: IssueText)

  /** The value both actions return to the page. */
  datatype FormResult = FormResult(success: bool, message: string, errors: Option<seq<Issue>>)

  /** Everything one call of an action does: its reply, the mails it handed to
      the transport (in order), and the record it logs in simulated mode. */
  datatype Submission = Submission(result: FormResult, attempted: seq<Mail>, previewLog: Option<seq<Entry>>)

  const CheckInputsMessage := "Please check your form inputs."
  const EmailMessage := "Please enter a valid email address"

  /** Some issue of `issues` is keyed by `field`. */
  predicate Flags(issues: seq<Issue>, field: string) {
    exists i :: 0 <= i < |issues| && issues[i].field == field
  }

  /** Every issue of `issues` is keyed by `field`. */
  predicate AllKeyed(issues: seq<Issue>, field: string) {
    forall i :: 0 <= i < |issues| ==> issues[i].field == field
  }

  lemma FlagsConcat(a: seq<Issue>, b: seq<Issue>, field: string)
    ensures Flags(a + b, field) <==> Flags(a, field) || Flags(b, field)
  {
    if Flags(a + b, field) {
      var i :| 0 <= i < |a + b| && (a + b)[i].field == field;
      if i >= |a| {
        assert b[i - |a|].field == field;
      }
    }
    if Flags(a, field) {
      var j :| 0 <= j < |a| && a[j].field == field;
      assert (a + b)[j].field == field;
    }
    if Flags(b, field) {
      var j :| 0 <= j < |b| && b[j].field == field;
      assert (a + b)[|a| + j].field == field;
    }
  }

  /** For issues all keyed by one field, that field is flagged exactly when
      there is an issue, and no other field is flagged. */
  lemma KeyedFlags(issues: seq<Issue>, keyed: string, field: string)
    requires AllKeyed(issues, keyed)
    ensures Flags(issues, field) <==> issues != [] && keyed == field
  {
    if issues != [] && keyed == field {
      assert issues[0].field == field;
    }
  }

  /** The issues one schema rule raised, with the field the rule guards. */
  datatype Check = Check(field: string, issues: seq<Issue>)

  /** Every rule keys its issues by its own field, and no two rules guard the
      same field. */
  predicate WellKeyed(checks: seq<Check>) {
    && (forall k :: 0 <= k < |checks| ==> AllKeyed(checks[k].issues, checks[k].field))
    && (forall j, k :: 0 <= j < k < |checks| ==> checks[j].field != checks[k].field)
  }

  /** The schema's issue list: the issues of every rule, none dropped. */
  function Collect(checks: seq<Check>): (r: seq<Issue>)
    ensures r == [] <==> forall k :: 0 <= k < |checks| ==> checks[k].issues == []
  {
    if checks == [] then [] else checks[0].issues + Collect(checks[1..])
  }

  /** A field is flagged in the collected list exactly when some rule guarding
      that field raised an issue. */
  lemma {:induction false} CollectFlags(checks: seq<Check>, field: string)
    requires forall k :: 0 <= k < |checks| ==> AllKeyed(checks[k].issues, checks[k].field)
    ensures Flags(Collect(checks), field) <==>
      exists k :: 0 <= k < |checks| && checks[k].field == field && checks[k].issues != []
  {
    if checks != [] {
      CollectFlags(checks[1..], field);
      FlagsConcat(checks[0].issues, Collect(checks[1..]), field);
      KeyedFlags(checks[0].issues, checks[0].field, field);
      if exists k :: 0 <= k < |checks| && checks[k].field == field && checks[k].issues != [] {
        var k :| 0 <= k < |checks| && checks[k].field == field && checks[k].issues != [];
        if k > 0 {
          assert checks[1..][k - 1] == checks[k];
        }
      }
    }
  }

  /** Every issue of every rule appears in the collected list. */
  lemma {:induction false} CollectKeeps(checks: seq<Check>, k: nat, issue: Issue)
    requires k < |checks| && issue in checks[k].issues
    ensures issue in Collect(checks)
  {
    if k > 0 {
      assert checks[1..][k - 1] == checks[k];
      CollectKeeps(checks[1..], k - 1, issue);
    }
  }

  /** An issue is in the collected list exactly when some rule raised it. */
  lemma {:induction false} CollectHas(checks: seq<Check>, issue: Issue)
    ensures issue in Collect(checks) <==> exists k :: 0 <= k < |checks| && issue in checks[k].issues
  {
    if checks != [] {
      CollectHas(checks[1..], issue);
      if exists k :: 0 <= k < |checks| && issue in checks[k].issues {
        var k :| 0 <= k < |checks| && issue in checks[k].issues;
        if k > 0 {
          assert checks[1..][k - 1] == checks[k];
        }
      }
      if exists k :: 0 <= k < |checks[1..]| && issue in checks[1..][k].issues {
        var k :| 0 <= k < |checks[1..]| && issue in checks[1..][k].issues;
        assert checks[k + 1] == checks[1..][k];
      }
    }
  }

  /** With distinct fields, an issue keyed by the field of rule `k` is in the
      collected list exactly when rule `k` raised it: no other rule can have. */
  lemma CollectHasAt(checks: seq<Check>, k: nat, issue: Issue)
    requires WellKeyed(checks)
    requires k < |checks| && issue.field == checks[k].field
    ensures issue in Collect(checks) <==> issue in checks[k].issues
  {
    CollectHas(checks, issue);
    forall j | 0 <= j < |checks| && issue in checks[j].issues
      ensures j == k
    {
      KeyedMember(checks[j].issues, checks[j].field, issue);
    }
  }

  lemma KeyedMember(issues: seq<Issue>, field: string, issue: Issue)
    requires AllKeyed(issues, field) && issue in issues
    ensures issue.field == field
  {
  }

  /** A `min(n)` rule among distinct-field rules shows up in the collected
      list with its own message exactly when its value is present and too
      short, and with the type message exactly when the value is missing. */
  lemma MinLengthReported(checks: seq<Check>, k: nat, field: string, v: FieldValue, n: nat, message: string)
    requires WellKeyed(checks) && k < |checks|
    requires checks[k] == Check(field, MinLengthIssues(field, v, n, message))
    ensures Issue(field, Says(message)) in Collect(checks) <==> v.Present? && |v.text| < n
    ensures Issue(field, WrongType) in Collect(checks) <==> v.Missing?
  {
    CollectHasAt(checks, k, Issue(field, Says(message)));
    CollectHasAt(checks, k, Issue(field, WrongType));
  }

  /** The email rule shows up with its message exactly when a present value
      fails the email predicate, and with the type message exactly when the
      value is missing. */
  lemma EmailReported(checks: seq<Check>, k: nat, field: string, v: FieldValue, isEmail: string -> bool)
    requires WellKeyed(checks) && k < |checks|
    requires checks[k] == Check(field, EmailIssues(field, v, isEmail))
    ensures Issue(field, Says(EmailMessage)) in Collect(checks) <==> v.Present? && !isEmail(v.text)
    ensures Issue(field, WrongType) in Collect(checks) <==> v.Missing?
  {
    CollectHasAt(checks, k, Issue(field, Says(EmailMessage)));
    CollectHasAt(checks, k, Issue(field, WrongType));
  }

  /** The phone rule shows up with the required message exactly for an empty
      value, with the USA-number message exactly for a present value that is
      not a USA number, and with the type message exactly when it is missing. */
  lemma PhoneReported(checks: seq<Check>, k: nat, field: string, v: FieldValue)
    requires WellKeyed(checks) && k < |checks|
    requires checks[k] == Check(field, PhoneIssues(field, v))
    ensures Issue(field, Says(PhoneRequiredMessage)) in Collect(checks) <==> v == Present("")
    ensures Issue(field, Says(UsaPhoneMessage)) in Collect(checks) <==> v.Present? && !IsUsaPhone(v.text)
    ensures Issue(field, WrongType) in Collect(checks) <==> v.Missing?
  {
    CollectHasAt(checks, k, Issue(field, Says(PhoneRequiredMessage)));
    CollectHasAt(checks, k, Issue(field, Says(UsaPhoneMessage)));
    CollectHasAt(checks, k, Issue(field, WrongType));
  }

  /** With distinct fields, the field of rule `k` is flagged exactly when rule
      `k` failed: each rule is reported independently. */
  lemma CollectFlagsAt(checks: seq<Check>, k: nat)
    requires WellKeyed(checks)
    requires k < |checks|
    ensures Flags(Collect(checks), checks[k].field) <==> checks[k].issues != []
  {
    CollectFlags(checks, checks[k].field);
  }

  /** `z.string().min(n)` passes. */
  predicate MinLengthOk(v: FieldValue, n: nat) {
    v.Present? && |v.text| >= n
  }

  /** `z.string().email()` passes, for an email predicate the model leaves
      abstract. */
  predicate EmailOk(v: FieldValue, isEmail: string -> bool) {
    v.Present? && isEmail(v.text)
  }

  /** `z.string().min(1).refine(IsUsaPhone)` passes. */
  predicate PhoneOk(v: FieldValue) {
    v.Present? && v.text != "" && IsUsaPhone(v.text)
  }

  /** The issues of `z.string().min(n, {message})` on one field: a missing
      value fails the string type check, a short one the length check. */
  function MinLengthIssues(field: string, v: FieldValue, n: nat, message: string): (r: seq<Issue>)
    ensures AllKeyed(r, field)
    ensures r == [] <==> MinLengthOk(v, n)
    ensures v.Missing? ==> r == [Issue(field, WrongType)]
    ensures v.Present? && |v.text| < n ==> r == [Issue(field, Says(message))]
  {
    match v
    case Missing => [Issue(field, WrongType)]
    case Present(s) => if |s| < n then [Issue(field, Says(message))] else []
  }

  /** The issues of `z.string().email()`. */
  function EmailIssues(field: string, v: FieldValue, isEmail: string -> bool): (r: seq<Issue>)
    ensures AllKeyed(r, field)
    ensures r == [] <==> EmailOk(v, isEmail)
    ensures v.Missing? ==> r == [Issue(field, WrongType)]
    ensures v.Present? && !isEmail(v.text) ==> r == [Issue(field, Says(EmailMessage))]
  {
    match v
    case Missing => [Issue(field, WrongType)]
    case Present(s) => if isEmail(s) then [] else [Issue(field, Says(EmailMessage))]
  }

  /** The issues of the phone schema. A failed length check does not abort the
      refinement, so an empty string raises both messages; a missing value
      fails the type check and nothing else runs. */
  function PhoneIssues(field: string, v: FieldValue): (r: seq<Issue>)
    ensures AllKeyed(r, field)
    ensures r == [] <==> PhoneOk(v)
    ensures v == Present("") ==> |r| == 2
    ensures v.Missing? ==> r == [Issue(field, WrongType)]
    ensures v == Present("") ==> r == [Issue(field, Says(PhoneRequiredMessage)), Issue(field, Says(UsaPhoneMessage))]
    ensures v.Present? && v.text != "" && !IsUsaPhone(v.text) ==> r == [Issue(field, Says(UsaPhoneMessage))]
  {
    match v
    case Missing => [Issue(field, WrongType)]
    case Present(s) =>
      (if |s| < 1 then [Issue(field, Says(PhoneRequiredMessage))] else [])
      + (if IsUsaPhone(s) then [] else [Issue(field, Says(UsaPhoneMessage))])
  }

  /** The reply to a submission that failed validation: nothing is sent and
      there is no preview log. */
  function Rejected(issues: seq<Issue>): Submission {
    Submission(FormResult(false, CheckInputsMessage, Some(issues)), [], None)
  }

  /** The reply after a live dispatch: success only when no send threw; a
      failure carries the generic message and no `errors`. */
  function Dispatched(d: Delivery, sentMessage: string, failedMessage: string): Submission {
    if d.allSent then Submission(FormResult(true, sentMessage, None), d.attempted, None)
    else Submission(FormResult(false, failedMessage, None), d.attempted, None)
  }
}

=== FILE: gallery.dfy ===
/** The photo gallery (components/gallery-section.tsx): the category
    buttons, the photo table, the category filter and the lightbox lookup. */
module Gallery {
  import opened Wrappers

  datatype Category = Category(id: string, name: string)

  /** A photo and the categories it is listed under. Pictures and
      descriptions are left out: the filter never reads them. */
  datatype Item = Item(id: int, categories: seq<string>, title: string)

  /** The pseudo-category that shows every photo. */
  const All := "all"

  /** `categories`: the filter buttons, in display order. */
  const Categories: seq<Category> := [
    Category("all", "All Photos"),
    Category("classrooms", "Classrooms"),
    Category("infant-room", "Infant Room"),
    Category("play-areas", "Play Areas"),
    Category("learning", "Learning Spaces"),
    Category("outdoor", "Outdoor Play"),
    Category("activities", "Daily Activities"),
    Category("reading", "Reading & Learning")
  ]

  /** `galleryItems`, in display order. */
  const Items: seq<Item> := [
    Item(1, ["classrooms", "infant-room"], "Infant Room"),
    Item(2, ["classrooms", "infant-room"], "Infant Room - Wide View"),
    Item(3, ["classrooms", "infant-room"], "Crib Area"),
    Item(4, ["play-areas"], "Indoor Play Area"),
    Item(5, ["play-areas"], "Main Play Room"),
    Item(6, ["learning"], "Learning Area with Tree Mural"),
    Item(7, ["play-areas"], "Play Area with Handprint Rug"),
    Item(8, ["classrooms"], "Daycare Entrance"),
    Item(9, ["learning"], "Bookshelf and Licenses"),
    Item(10, ["infant-room", "play-areas"], "Teepee Play Area"),
    Item(11, ["outdoor"], "Garden Activities"),
    Item(12, ["infant-room"], "Infants Together"),
    Item(13, ["infant-room", "play-areas"], "Teepee Play Space"),
    Item(14, ["infant-room", "play-areas"], "Infant Play Area"),
    Item(15, ["learning", "classrooms"], "Toddlers Building Together"),
    Item(16, ["learning", "classrooms"], "Preschool Arts & Crafts"),
    Item(17, ["learning", "classrooms"], "Preschool Learning Area"),
    Item(18, ["outdoor"], "Outdoor Playground"),
    Item(19, ["reading", "learning"], "Story Time by the Window"),
    Item(20, ["activities", "outdoor"], "Outdoor Learning Activities"),
    Item(21, ["play-areas", "learning"], "Imaginative Play Corner"),
    Item(22, ["activities", "learning"], "Nature & Science Exploration"),
    Item(23, ["reading", "learning"], "Cozy Reading Nook"),
    Item(24, ["activities", "learning"], "Arts & Crafts Station")
  ]

  /** `a` is `b` with some elements left out, the rest kept in order. */
  predicate SubsequenceOf<T(==)>(a: seq<T>, b: seq<T>)
    decreases |b|
  {
    if a == [] then true
    else if b == [] then false
    else (a[0] == b[0] && SubsequenceOf(a[1..], b[1..])) || SubsequenceOf(a, b[1..])
  }

  /** `Array.prototype.filter` keeping the items listed under `c`. */
  function Filter(items: seq<Item>, c: string): (r: seq<Item>)
    ensures forall x :: x in r <==> x in items && c in x.categories
    ensures SubsequenceOf(r, items)
    ensures |r| <= |items|
    decreases |items|
  {
    if items == [] then []
    else if c in items[0].categories then [items[0]] + Filter(items[1..], c)
    else Filter(items[1..], c)
  }

  /** `filteredItems`: every photo for "all", otherwise the photos listed
      under the active category, in table order. */
  function FilteredItems(active: string): (r: seq<Item>)
    ensures active == All ==> r == Items
    ensures active != All ==> forall x :: x in r <==> x in Items && active in x.categories
    ensures SubsequenceOf(r, Items)
  {
    if active == All then
      SubsequenceReflexive(Items);
      Items
    else Filter(Items, active)
  }

  lemma {:induction false} SubsequenceReflexive<T>(a: seq<T>)
    ensures SubsequenceOf(a, a)
    decreases |a|
  {
    if a != [] {
      SubsequenceReflexive(a[1..]);
    }
  }

  /** Photo `i` of the table has id `i + 1`. */
  lemma ItemIds()
    ensures |Items| == 24
    ensures forall i :: 0 <= i < |Items| ==> Items[i].id == i + 1
  {
  }

  /** `find` by id for the lightbox. */
  function FindItem(items: seq<Item>, id: int): (r: Option<Item>)
    ensures r.None? <==> forall i :: 0 <= i < |items| ==> items[i].id != id
    ensures r.Some? ==> r.value in items && r.value.id == id
    decreases |items|
  {
    if items == [] then None
    else if items[0].id == id then Some(items[0])
    else FindItem(items[1..], id)
  }

  /** Clicking any photo opens the lightbox on that very photo: ids are
      unique, so the lookup by id finds exactly the clicked one. */
  lemma LightboxShowsClicked(i: nat)
    requires i < |Items|
    ensures FindItem(Items, Items[i].id) == Some(Items[i])
    ensures forall j :: 0 <= j < |Items| && Items[j].id == Items[i].id ==> j == i
  {
    ItemIds();
    var r := FindItem(Items, Items[i].id);
    var j :| 0 <= j < |Items| && Items[j] == r.value;
  }

  /** Every category a photo lists is one of the buttons other than "all". */
  lemma CategoriesDeclared(i: nat, k: nat)
    requires i < |Items| && k < |Items[i].categories|
    ensures exists j :: 1 <= j < |Categories| && Categories[j].id == Items[i].categories[k]
  {
    var c := Items[i].categories[k];
    var j := if c == "classrooms" then 1 else if c == "infant-room" then 2
      else if c == "play-areas" then 3 else if c == "learning" then 4
      else if c == "outdoor" then 5 else if c == "activities" then 6 else 7;
    assert Categories[j].id == c;
  }

  /** No button other than "all" shows the empty-state message: each
      category has at least one photo. */
  lemma NoEmptyCategory(j: nat)
    requires 1 <= j < |Categories|
    ensures |FilteredItems(Categories[j].id)| > 0
  {
    var c := Categories[j].id;
    var i := if j == 1 then 0 else if j == 2 then 0 else if j == 3 then 3
      else if j == 4 then 5 else if j == 5 then 10 else if j == 6 then 19 else 18;
    assert c in Items[i].categories;
    assert Items[i] in FilteredItems(c);
  }
}

=== FILE: mail.dfy ===
/** Outbound mail as the actions compose it, and the abstract transport that
    delivers it. */
module Mail {
  import opened Wrappers

  /** One substitution into a mail template: the key it appears under and
      the value filled in. */
  datatype Entry = Entry(key: string, value: string)

  /** A composed mail. `to` mirrors `process.env.EMAIL_USER`, which may be
      unset; `listUnsubscribe` is the `List-Unsubscribe` header, present on
      confirmation mails only. The surrounding HTML and the plain-text copy
      are not modelled, only the values substituted into them. */
  datatype Mail = Mail(
    fromName: string,
    fromAddress: string,
    to: Option<string>,
    replyTo: string,
    subject: string,
    body: seq<Entry>,
    listUnsubscribe: Option<string>
  )

  /** What one `transporter.sendMail` call does: resolve, or throw. */
  datatype SendOutcome = Sent | Threw

  /** The mails handed to the transport, in order, and whether none threw. */
  datatype Delivery = Delivery(attempted: seq<Mail>, allSent: bool)

  const SenderName := "Sunshine Fitsum Daycare"

  /** Sends `primary`, then `confirmation` if there is one; an exception from
      the first send skips the second. */
  function Deliver(primary: Mail, confirmation: Option<Mail>, send: Mail -> SendOutcome): (d: Delivery)
    ensures 1 <= |d.attempted| <= 2 && d.attempted[0] == primary
    ensures |d.attempted| == 2 <==> confirmation.Some? && send(primary) == Sent
    ensures |d.attempted| == 2 ==> d.attempted[1] == confirmation.value
    ensures d.allSent <==> forall i :: 0 <= i < |d.attempted| ==> send(d.attempted[i]) == Sent
  {
    if send(primary) == Threw then Delivery([primary], false)
    else match confirmation
      case None =>
        var one := [primary];
        assert forall i :: 0 <= i < |one| ==> send(one[i]) == Sent;
        Delivery(one, true)
      case Some(c) => Delivery([primary, c], send(c) == Sent)
  }
}

=== FILE: modular.dfy ===
/** Facts about `%` on non-negative operands, where Dafny's Euclidean
    remainder and JavaScript's truncating one agree. */
module Modular {
  lemma SmallMod(a: int, n: int)
    requires 0 <= a < n
    ensures a % n == a
  {
  }

  lemma SelfMod(n: int)
    requires 0 < n
    ensures n % n == 0
  {
  }

  lemma MulAtLeast(d: int, n: int)
    requires d >= 1 && n > 0
    ensures d * n >= n
  {
  }

  /** The only multiple of `n` strictly between `-n` and `n` is zero. */
  lemma NoSmallMultiple(d: int, n: int)
    requires n > 0
    ensures -n < d * n < n ==> d == 0
  {
    if d >= 1 {
      MulAtLeast(d, n);
    } else if d <= -1 {
      MulAtLeast(-d, n);
      assert (-d) * n == -(d * n);
    }
  }

  /** The remainder is the one `r` with `x == q * n + r` and `0 <= r < n`. */
  lemma ModUnique(x: int, n: int, q: int, r: int)
    requires 0 < n && 0 <= r < n && x == q * n + r
    ensures x % n == r
  {
    var q', r' := x / n, x % n;
    assert x == q' * n + r';
    assert (q - q') * n == r' - r;
    NoSmallMultiple(q - q', n);
  }

  /** Going once more round the cycle changes nothing. */
  lemma AddMod(a: int, n: int)
    requires 0 < n && 0 <= a
    ensures (a + n) % n == a % n
  {
    var q, r := a / n, a % n;
    assert a + n == (q + 1) * n + r;
    ModUnique(a + n, n, q + 1, r);
  }

  /** On a cycle of length `n`, a step back undoes a step forward ... */
  lemma BackAfterForward(k: int, n: int)
    requires 0 <= k < n
    ensures ((k + 1) % n + n - 1) % n == k
  {
    if k + 1 < n {
      SmallMod(k + 1, n);
      AddMod(k, n);
      SmallMod(k, n);
    } else {
      SelfMod(n);
      SmallMod(n - 1, n);
    }
  }

  /** ... and a step forward undoes a step back. */
  lemma ForwardAfterBack(k: int, n: int)
    requires 0 <= k < n
    ensures ((k + n - 1) % n + 1) % n == k
  {
    if k > 0 {
      AddMod(k - 1, n);
      SmallMod(k - 1, n);
      SmallMod(k, n);
    } else {
      SmallMod(n - 1, n);
      SelfMod(n);
    }
  }

  /** One step forward and then `m` more is `m + 1` steps. */
  lemma ForwardThenMore(a: int, n: int, m: nat)
    requires 0 <= a < n
    ensures ((a + 1) % n + m) % n == (a + 1 + m) % n
  {
    if a + 1 == n {
      SelfMod(n);
      AddMod(m, n);
    } else {
      SmallMod(a + 1, n);
    }
  }
}

=== FILE: phone_rule.dfy ===
/** The USA phone rule both server actions attach to the `phone` field
    (app/api/contact/action.ts:14-25, app/api/enrollment/action.ts:14-25). */
module PhoneRule {
  import opened Text

  const PhoneRequiredMessage := "Phone number is required"
  const UsaPhoneMessage := "Please enter a valid USA phone number (10 digits)"

  /** The refine predicate: after stripping every non-digit, exactly ten
      digits, or eleven digits starting with the country code `1`. */
  predicate IsUsaPhone(s: string) {
    var d := DigitsOf(s);
    |d| == 10 || (|d| == 11 && StartsWith(d, "1"))
  }

  /** The verdict depends on the digits alone: the accepted inputs are exactly
      those whose digit projection is a ten-digit number or `1` followed by a
      ten-digit number. */
  lemma UsaPhoneIffDigits(s: string)
    ensures IsUsaPhone(s) <==>
      (exists t :: AllDigits(t) && |t| == 10 && (DigitsOf(s) == t || DigitsOf(s) == "1" + t))
  {
    var d := DigitsOf(s);
    if |d| == 10 {
      assert AllDigits(d) && |d| == 10 && DigitsOf(s) == d;
    } else if |d| == 11 && StartsWith(d, "1") {
      var t := d[1..];
      assert d == "1" + t;
      assert AllDigits(t) && |t| == 10 && DigitsOf(s) == "1" + t;
    }
  }

  /** Inserting or removing a non-digit character never changes the verdict. */
  lemma UsaPhoneIgnoresNonDigit(a: string, c: char, b: string)
    requires !IsDigit(c)
    ensures IsUsaPhone(a + [c] + b) <==> IsUsaPhone(a + b)
  {
    DigitsOfIgnoresNonDigit(a, c, b);
  }

  /** Validating the digit projection gives the same verdict as validating
      the original string. */
  lemma UsaPhoneOfDigits(s: string)
    ensures IsUsaPhone(DigitsOf(s)) <==> IsUsaPhone(s)
  {
    DigitsOfIdempotent(s);
  }

  /** A formatted ten-digit number passes. */
  lemma AcceptsFormattedNumber(s: string)
    requires s == "(206) 688-9088"
    ensures IsUsaPhone(s)
  {
    assert s == "(" + ("206" + (") " + ("688" + ("-" + ("9088" + "")))));
    DigitsAround("-", "9088", "");
    DigitsAround(") ", "688", "-" + ("9088" + ""));
    DigitsAround("(", "206", ") " + ("688" + ("-" + ("9088" + ""))));
  }

  /** A number written with its country code passes. */
  lemma AcceptsCountryCode(s: string)
    requires s == "1-206-688-9088"
    ensures IsUsaPhone(s)
  {
    assert s == "" + ("1" + ("-" + ("206" + ("-" + ("688" + ("-" + ("9088" + "")))))));
    DigitsAround("-", "9088", "");
    DigitsAround("-", "688", "-" + ("9088" + ""));
    DigitsAround("-", "206", "-" + ("688" + ("-" + ("9088" + ""))));
    DigitsAround("", "1", "-" + ("206" + ("-" + ("688" + ("-" + ("9088" + ""))))));
  }

  /** Eight digits are too few. */
  lemma RejectsShortNumber(s: string)
    requires s == "206-68-908"
    ensures !IsUsaPhone(s)
  {
    assert s == "" + ("206" + ("-" + ("68" + ("-" + ("908" + "")))));
    DigitsAround("-", "908", "");
    DigitsAround("-", "68", "-" + ("908" + ""));
    DigitsAround("", "206", "-" + ("68" + ("-" + ("908" + ""))));
  }

  /** Eleven digits pass only with the country code `1` in front. */
  lemma RejectsWrongCountryCode(s: string)
    requires s == "2-206-688-9088"
    ensures !IsUsaPhone(s)
  {
    var tail := "-" + ("206" + ("-" + ("688" + ("-" + ("9088" + "")))));
    assert tail == "-206-688-9088";
    assert s == "" + ("2" + tail);
    DigitsAround("-", "9088", "");
    DigitsAround("-", "688", "-" + ("9088" + ""));
    DigitsAround("-", "206", "-" + ("688" + ("-" + ("9088" + ""))));
    DigitsAround("", "2", tail);
  }
}

=== FILE: seo.dfy ===
/** The SEO helpers (lib/seo-utils.ts): canonical URLs, the production test,
    and the breadcrumb and FAQ structured-data builders. */
module Seo {
  import opened Wrappers
  import opened Text
  import opened Environment

  const ProductionHost := "www.sunshinefitsumdaycare.com"
  const ProductionUrl := "https://www.sunshinefitsumdaycare.com"
  const SchemaContext := "https://schema.org"

  /** The path with a leading `/` added when it has none. */
  function NormalizePath(path: string): (p: string)
    ensures StartsWith(p, "/")
    ensures StartsWith(path, "/") ==> p == path
    ensures !StartsWith(path, "/") ==> p[1..] == path
  {
    if StartsWith(path, "/") then path else "/" + path
  }

  /** `getCanonicalUrl`. */
  function CanonicalUrl(path: string): (u: string)
    ensures StartsWith(path, "/") ==> u == ProductionUrl + path
    ensures !StartsWith(path, "/") ==> u == ProductionUrl + "/" + path
    ensures StartsWith(u, ProductionUrl + "/")
  {
    var p := NormalizePath(path);
    assert (ProductionUrl + p)[..|ProductionUrl + "/"|] == ProductionUrl + p[..1];
    ProductionUrl + p
  }

  /** A path without its leading `/` has the same canonical URL as with it;
      in particular the site root maps to the production URL with a
      trailing `/`. */
  lemma CanonicalAddsMissingSlash(path: string)
    requires !StartsWith(path, "/")
    ensures CanonicalUrl(path) == CanonicalUrl("/" + path)
    ensures CanonicalUrl("/") == ProductionUrl + "/"
    ensures CanonicalUrl("") == ProductionUrl + "/"
  {
    assert StartsWith("/" + path, "/");
    assert StartsWith("/", "/");
    assert ("/" + path)[..1] == "/";
  }

  /** The path part of a canonical URL. */
  function PathOf(u: string): string
    requires |u| >= |ProductionUrl|
  {
    u[|ProductionUrl|..]
  }

  /** Reading the path back out of a canonical URL gives the normalised path,
      so two paths share a canonical URL exactly when they normalise alike. */
  lemma CanonicalRoundTrip(path: string, other: string)
    ensures PathOf(CanonicalUrl(path)) == NormalizePath(path)
    ensures CanonicalUrl(path) == CanonicalUrl(other) <==> NormalizePath(path) == NormalizePath(other)
  {
    var u, v := CanonicalUrl(path), CanonicalUrl(other);
    assert u == ProductionUrl + NormalizePath(path);
    assert v == ProductionUrl + NormalizePath(other);
    assert PathOf(u) == NormalizePath(path);
    if u == v {
      assert PathOf(v) == NormalizePath(other);
    }
  }

  /** `isProduction`: the production deployment, reached under the
      production host through either of the two URL variables. */
  predicate IsProduction(env: Env) {
    && env.vercelEnv == Some("production")
    && (env.vercelUrl == Some(ProductionHost) || env.publicVercelUrl == Some(ProductionHost))
  }

  /** Production needs `VERCEL_ENV` to be exactly `production`: a preview,
      development or unset deployment is never production, whatever its URL
      variables say. Given that, either URL variable naming the production
      host suffices, and neither naming it rules production out. */
  lemma PreviewIsNotProduction(env: Env)
    ensures env.vercelEnv != Some("production") ==> !IsProduction(env)
    ensures env.vercelEnv == Some("preview") ==> !IsProduction(env)
    ensures env.vercelEnv == None ==> !IsProduction(env)
    ensures env.vercelEnv == Some("production") && env.vercelUrl == Some(ProductionHost) ==> IsProduction(env)
    ensures env.vercelEnv == Some("production") && env.publicVercelUrl == Some(ProductionHost) ==> IsProduction(env)
    ensures env.vercelUrl != Some(ProductionHost) && env.publicVercelUrl != Some(ProductionHost) ==> !IsProduction(env)
  {
  }

  /** An entry of the breadcrumb trail as the page passes it in. */
  datatype Crumb = Crumb(name: string, url: string)

  /** A `ListItem` of the emitted `BreadcrumbList`. */
  datatype ListItem = ListItem(kind: string, position: int, name: string, item: string)

  datatype BreadcrumbList = BreadcrumbList(context: string, kind: string, elements: seq<ListItem>)

  /** The list items for `crumbs`, whose first one sits at index `start` of
      the whole trail. */
  function ListItemsFrom(crumbs: seq<Crumb>, start: nat): (r: seq<ListItem>)
    ensures |r| == |crumbs|
    ensures forall i :: 0 <= i < |r| ==>
      r[i] == ListItem("ListItem", start + i + 1, crumbs[i].name, crumbs[i].url)
    decreases |crumbs|
  {
    if crumbs == [] then []
    else [ListItem("ListItem", start + 1, crumbs[0].name, crumbs[0].url)] + ListItemsFrom(crumbs[1..], start + 1)
  }

  /** `generateBreadcrumbStructuredData`: one list item per crumb, in order,
      at one-based positions. */
  function Breadcrumbs(crumbs: seq<Crumb>): (b: BreadcrumbList)
    ensures b.context == SchemaContext && b.kind == "BreadcrumbList"
    ensures |b.elements| == |crumbs|
    ensures forall i :: 0 <= i < |crumbs| ==>
      b.elements[i].position == i + 1 && b.elements[i].name == crumbs[i].name && b.elements[i].item == crumbs[i].url
  {
    BreadcrumbList(SchemaContext, "BreadcrumbList", ListItemsFrom(crumbs, 0))
  }

  /** The crumbs a list was built from, read back. */
  function CrumbsOf(items: seq<ListItem>): (r: seq<Crumb>)
    ensures |r| == |items|
    ensures forall i :: 0 <= i < |items| ==> r[i] == Crumb(items[i].name, items[i].item)
  {
    seq(|items|, i requires 0 <= i < |items| => Crumb(items[i].name, items[i].item))
  }

  /** Nothing of a crumb is lost: reading the list back gives the trail. */
  lemma BreadcrumbsRoundTrip(crumbs: seq<Crumb>)
    ensures CrumbsOf(Breadcrumbs(crumbs).elements) == crumbs
  {
    var r := CrumbsOf(Breadcrumbs(crumbs).elements);
    assert forall i :: 0 <= i < |crumbs| ==> r[i] == crumbs[i];
  }

  /** A question and answer as the page passes them in. */
  datatype Faq = Faq(question: string, answer: string)

  datatype Answer = Answer(kind: string, text: string)
  datatype Question = Question(kind: string, name: string, acceptedAnswer: Answer)
  datatype FaqPage = FaqPage(context: string, kind: string, mainEntity: seq<Question>)

  function Questions(faqs: seq<Faq>): (r: seq<Question>)
    ensures |r| == |faqs|
    ensures forall i :: 0 <= i < |r| ==>
      r[i] == Question("Question", faqs[i].question, Answer("Answer", faqs[i].answer))
    decreases |faqs|
  {
    if faqs == [] then []
    else [Question("Question", faqs[0].question, Answer("Answer", faqs[0].answer))] + Questions(faqs[1..])
  }

  /** `generateFAQStructuredData`: one question per entry, in order. */
  function FaqStructuredData(faqs: seq<Faq>): (p: FaqPage)
    ensures p.context == SchemaContext && p.kind == "FAQPage"
    ensures |p.mainEntity| == |faqs|
    ensures forall i :: 0 <= i < |faqs| ==>
      p.mainEntity[i].name == faqs[i].question && p.mainEntity[i].acceptedAnswer.text == faqs[i].answer
  {
    FaqPage(SchemaContext, "FAQPage", Questions(faqs))
  }

  function FaqsOf(qs: seq<Question>): (r: seq<Faq>)
    ensures |r| == |qs|
    ensures forall i :: 0 <= i < |qs| ==> r[i] == Faq(qs[i].name, qs[i].acceptedAnswer.text)
  {
    seq(|qs|, i requires 0 <= i < |qs| => Faq(qs[i].name, qs[i].acceptedAnswer.text))
  }

  /** Every question and answer comes through unchanged and in order. */
  lemma FaqRoundTrip(faqs: seq<Faq>)
    ensures FaqsOf(FaqStructuredData(faqs).mainEntity) == faqs
  {
    var r := FaqsOf(FaqStructuredData(faqs).mainEntity);
    assert forall i :: 0 <= i < |faqs| ==> r[i] == faqs[i];
  }
}

=== FILE: text.dfy ===
/** String helpers the handlers and components rely on: the digit projection
    `s.replace(/\D/g, "")`, the newline-to-`<br>` substitution
    `s.replace(/\n/g, "<br>")`, and `startsWith`. */
module Text {

  /** `\D` in a JavaScript regular expression without the `u` flag is the
      complement of the ASCII digits `0`-`9`. */
  predicate IsDigit(c: char) {
    '0' <= c <= '9'
  }

  predicate AllDigits(s: string) {
    forall i :: 0 <= i < |s| ==> IsDigit(s[i])
  }

  predicate StartsWith(s: string, prefix: string) {
    |prefix| <= |s| && s[..|prefix|] == prefix
  }

  /** The digits of `s`, in order, with every other character removed. */
  function DigitsOf(s: string): (d: string)
    ensures AllDigits(d)
    ensures |d| <= |s|
  {
    if s == [] then []
    else if IsDigit(s[0]) then [s[0]] + DigitsOf(s[1..])
    else DigitsOf(s[1..])
  }

  /** The digit projection distributes over concatenation. */
  lemma {:induction false} DigitsOfConcat(a: string, b: string)
    ensures DigitsOf(a + b) == DigitsOf(a) + DigitsOf(b)
    decreases |a|
  {
    if a == [] {
      assert a + b == b;
    } else {
      assert (a + b)[0] == a[0];
      assert (a + b)[1..] == a[1..] + b;
      DigitsOfConcat(a[1..], b);
    }
  }

  /** A string of digits is its own projection. */
  lemma {:induction false} DigitsOfDigits(s: string)
    requires AllDigits(s)
    ensures DigitsOf(s) == s
    decreases |s|
  {
    if s != [] {
      DigitsOfDigits(s[1..]);
    }
  }

  /** Digits framed by digit-free text: `p + a + q` projects to `a` followed by
      the digits of `q`. */
  lemma DigitsAround(p: string, a: string, q: string)
    requires DigitsOf(p) == []
    requires AllDigits(a)
    ensures DigitsOf(p + (a + q)) == a + DigitsOf(q)
  {
    DigitsOfConcat(p, a + q);
    DigitsOfConcat(a, q);
    DigitsOfDigits(a);
    assert [] + (a + DigitsOf(q)) == a + DigitsOf(q);
  }

  /** Inserting or removing a character that is not a digit leaves the
      projection unchanged. */
  lemma DigitsOfIgnoresNonDigit(a: string, c: char, b: string)
    requires !IsDigit(c)
    ensures DigitsOf(a + [c] + b) == DigitsOf(a + b)
  {
    DigitsOfConcat(a + [c], b);
    DigitsOfConcat(a, [c]);
    DigitsOfConcat(a, b);
    assert DigitsOf([c]) == [];
  }

  /** Projecting twice is projecting once. */
  lemma DigitsOfIdempotent(s: string)
    ensures DigitsOf(DigitsOf(s)) == DigitsOf(s)
  {
    DigitsOfDigits(DigitsOf(s));
  }

  /** `s.replace(/\n/g, "<br>")`: every line feed becomes an HTML line break. */
  function ReplaceNewlines(s: string): (r: string)
    ensures forall i :: 0 <= i < |r| ==> r[i] != '\n'
    ensures |r| >= |s|
    ensures (forall i :: 0 <= i < |s| ==> s[i] != '\n') ==> r == s
  {
    if s == [] then []
    else if s[0] == '\n' then "<br>" + ReplaceNewlines(s[1..])
    else [s[0]] + ReplaceNewlines(s[1..])
  }

  /** The substitution works piecewise, so text on either side of a point is
      rewritten independently. */
  lemma {:induction false} ReplaceNewlinesConcat(a: string, b: string)
    ensures ReplaceNewlines(a + b) == ReplaceNewlines(a) + ReplaceNewlines(b)
    decreases |a|
  {
    if a == [] {
      assert a + b == b;
    } else {
      assert (a + b)[0] == a[0];
      assert (a + b)[1..] == a[1..] + b;
      ReplaceNewlinesConcat(a[1..], b);
    }
  }

  /** A line feed anywhere in the text becomes `<br>`, and the text around
      it is rewritten on its own. */
  lemma LineFeedBecomesBreak(a: string, b: string)
    ensures ReplaceNewlines(a + ("\n" + b)) == ReplaceNewlines(a) + ("<br>" + ReplaceNewlines(b))
  {
    ReplaceNewlinesConcat(a, "\n" + b);
    ReplaceNewlinesConcat("\n", b);
    assert ReplaceNewlines("\n") == "<br>";
  }

  /** Two digit groups, each preceded by digit-free text. */
  lemma DigitsFramed2(p: string, a: string, q: string, b: string)
    requires DigitsOf(p) == [] && DigitsOf(q) == []
    requires AllDigits(a) && AllDigits(b)
    ensures DigitsOf(p + (a + (q + b))) == a + b
  {
    DigitsAround(q, b, "");
    assert q + (b + "") == q + b;
    assert b + DigitsOf("") == b;
    DigitsAround(p, a, q + b);
  }

  /** Three digit groups, each preceded by digit-free text. */
  lemma DigitsFramed3(p: string, a: string, q: string, b: string, r: string, c: string)
    requires DigitsOf(p) == [] && DigitsOf(q) == [] && DigitsOf(r) == []
    requires AllDigits(a) && AllDigits(b) && AllDigits(c)
    ensures DigitsOf(p + (a + (q + (b + (r + c))))) == a + (b + c)
  {
    DigitsFramed2(q, b, r, c);
    DigitsAround(p, a, q + (b + (r + c)));
  }
}

=== FILE: virtual_tour.dfy ===
/** The virtual tour (components/virtual-tour.tsx): a fixed table of seven
    locations linked by hotspots, and the navigation that moves between them. */
module VirtualTour {
  import opened Wrappers
  import opened Modular

  /** A clickable point on a location's picture, in percent of its width and
      height, leading to the location with id `target`. */
  datatype Hotspot = Hotspot(x: int, y: int, target: string, title: string)

  datatype Location = Location(id: string, name: string, hotspots: seq<Hotspot>)

  /** `tourLocations`, in display order. Pictures and descriptions are left
      out: navigation never reads them. */
  const Locations: seq<Location> := [
    Location("entrance", "Welcoming Entrance", [
      Hotspot(70, 30, "main-room", "Main Room"),
      Hotspot(30, 60, "info-desk", "Information Desk")]),
    Location("main-room", "Main Activity Room", [
      Hotspot(20, 40, "entrance", "Entrance"),
      Hotspot(80, 50, "infant-room", "Infant Room"),
      Hotspot(50, 70, "play-area", "Play Area")]),
    Location("infant-room", "Infant Room", [
      Hotspot(15, 50, "main-room", "Main Room"),
      Hotspot(75, 40, "crib-area", "Crib Area")]),
    Location("crib-area", "Crib Area", [
      Hotspot(20, 50, "infant-room", "Infant Room")]),
    Location("play-area", "Indoor Play Area", [
      Hotspot(30, 30, "main-room", "Main Room"),
      Hotspot(70, 60, "learning-area", "Learning Area")]),
    Location("learning-area", "Learning Area", [
      Hotspot(20, 40, "play-area", "Play Area")]),
    Location("info-desk", "Information Desk", [
      Hotspot(60, 50, "entrance", "Back to Entrance")])
  ]

  /** No two locations of `t` share an id. */
  predicate UniqueIds(t: seq<Location>) {
    forall i, j :: 0 <= i < j < |t| ==> t[i].id != t[j].id
  }

  /** The index of the first location of `t` from position `from` on with id
      `id`, or -1, as `Array.prototype.findIndex` answers for `from == 0`. */
  function FindFrom(t: seq<Location>, id: string, from: nat): (r: int)
    requires from <= |t|
    ensures r == -1 || from <= r < |t|
    ensures r == -1 <==> forall i :: from <= i < |t| ==> t[i].id != id
    ensures r >= 0 ==> t[r].id == id && forall i :: from <= i < r ==> t[i].id != id
    decreases |t| - from
  {
    if from == |t| then -1
    else if t[from].id == id then from
    else FindFrom(t, id, from + 1)
  }

  function FindIndex(t: seq<Location>, id: string): (r: int)
    ensures -1 <= r < |t|
    ensures r == -1 <==> forall i :: 0 <= i < |t| ==> t[i].id != id
    ensures r >= 0 ==> t[r].id == id && forall i :: 0 <= i < r ==> t[i].id != id
  {
    FindFrom(t, id, 0)
  }

  /** `Array.prototype.find` on the id. */
  function Find(t: seq<Location>, id: string): (r: Option<Location>)
    ensures r.None? <==> forall i :: 0 <= i < |t| ==> t[i].id != id
    ensures r.Some? ==> r.value in t && r.value.id == id
  {
    var i := FindIndex(t, id);
    if i == -1 then None else Some(t[i])
  }

  /** Looking up the id of the location at position `k` finds position `k`
      when the ids are unique. */
  lemma IndexOfPosition(t: seq<Location>, k: nat)
    requires UniqueIds(t) && k < |t|
    ensures FindIndex(t, t[k].id) == k
    ensures Find(t, t[k].id) == Some(t[k])
  {
  }

  /** The part of the component state navigation touches. */
  datatype TourState = TourState(current: Location, isLoading: bool)

  /** The tour opens on the first location, waiting for its picture. */
  const Initial := TourState(Locations[0], true)

  /** The current location is one of the table's. */
  predicate Valid(t: seq<Location>, s: TourState) {
    s.current in t
  }

  /** `navigateTo`: a known id moves there and waits for the new picture;
      an unknown id changes nothing. */
  function NavigateTo(t: seq<Location>, s: TourState, id: string): (r: TourState)
    ensures Find(t, id).None? ==> r == s
    ensures Find(t, id).Some? ==> r.current.id == id && r.current in t && r.isLoading
  {
    match Find(t, id)
    case None => s
    case Some(loc) => TourState(loc, true)
  }

  /** The position of the current location. */
  function Index(t: seq<Location>, s: TourState): int {
    FindIndex(t, s.current.id)
  }

  /** The JavaScript `%` in the next and previous steps only ever sees
      non-negative operands, where Dafny's `%` agrees with it. */
  function NavigateNext(t: seq<Location>, s: TourState): TourState
    requires |t| > 0
  {
    NavigateTo(t, s, t[(Index(t, s) + 1) % |t|].id)
  }

  function NavigatePrevious(t: seq<Location>, s: TourState): TourState
    requires |t| > 0
  {
    NavigateTo(t, s, t[(Index(t, s) - 1 + |t|) % |t|].id)
  }

  /** With unique ids, the current location is the one at its position. */
  lemma CurrentAtIndex(t: seq<Location>, s: TourState)
    requires UniqueIds(t) && Valid(t, s)
    ensures 0 <= Index(t, s) < |t| && s.current == t[Index(t, s)]
  {
    var j :| 0 <= j < |t| && t[j] == s.current;
    IndexOfPosition(t, j);
  }

  /** Next and previous move one position forward and back around the
      cycle, and leave the state valid and loading. */
  lemma StepPositions(t: seq<Location>, s: TourState)
    requires UniqueIds(t) && Valid(t, s)
    ensures 0 <= Index(t, s) < |t|
    ensures Valid(t, NavigateNext(t, s)) && NavigateNext(t, s).isLoading
    ensures Valid(t, NavigatePrevious(t, s)) && NavigatePrevious(t, s).isLoading
    ensures Index(t, NavigateNext(t, s)) == (Index(t, s) + 1) % |t|
    ensures Index(t, NavigatePrevious(t, s)) == (Index(t, s) + |t| - 1) % |t|
  {
    var k := Index(t, s);
    IndexOfPosition(t, (k + 1) % |t|);
    IndexOfPosition(t, (k - 1 + |t|) % |t|);
  }

  /** Two valid states at the same position show the same location. */
  lemma SamePosition(t: seq<Location>, s: TourState, u: TourState)
    requires UniqueIds(t) && Valid(t, s) && Valid(t, u)
    requires Index(t, s) == Index(t, u)
    ensures s.current == u.current
  {
    CurrentAtIndex(t, s);
    CurrentAtIndex(t, u);
  }

  /** Previous undoes next ... */
  lemma PreviousUndoesNext(t: seq<Location>, s: TourState)
    requires UniqueIds(t) && Valid(t, s)
    ensures NavigatePrevious(t, NavigateNext(t, s)).current == s.current
  {
    var k, n := Index(t, s), |t|;
    var a := NavigateNext(t, s);
    assert 0 <= k < n && Valid(t, a) && Index(t, a) == (k + 1) % n by { StepPositions(t, s); }
    var b := NavigatePrevious(t, a);
    assert Valid(t, b) && Index(t, b) == (Index(t, a) + n - 1) % n by { StepPositions(t, a); }
    assert Index(t, b) == k by { BackAfterForward(k, n); }
    SamePosition(t, s, b);
  }

  /** ... and next undoes previous. */
  lemma NextUndoesPrevious(t: seq<Location>, s: TourState)
    requires UniqueIds(t) && Valid(t, s)
    ensures NavigateNext(t, NavigatePrevious(t, s)).current == s.current
  {
    var k, n := Index(t, s), |t|;
    var a := NavigatePrevious(t, s);
    assert 0 <= k < n && Valid(t, a) && Index(t, a) == (k + n - 1) % n by { StepPositions(t, s); }
    var b := NavigateNext(t, a);
    assert Valid(t, b) && Index(t, b) == (Index(t, a) + 1) % n by { StepPositions(t, a); }
    assert Index(t, b) == k by { ForwardAfterBack(k, n); }
    SamePosition(t, s, b);
  }

  /** `n` presses of the next button. */
  function NextTimes(t: seq<Location>, s: TourState, n: nat): TourState
    requires |t| > 0
    decreases n
  {
    if n == 0 then s else NextTimes(t, NavigateNext(t, s), n - 1)
  }

  lemma {:induction false} NextTimesPosition(t: seq<Location>, s: TourState, n: nat)
    requires UniqueIds(t) && Valid(t, s)
    ensures Valid(t, NextTimes(t, s, n))
    ensures 0 <= Index(t, NextTimes(t, s, n)) < |t|
    ensures Index(t, NextTimes(t, s, n)) == (Index(t, s) + n) % |t|
    decreases n
  {
    var k := Index(t, s);
    assert 0 <= k < |t| && Valid(t, NavigateNext(t, s))
      && Index(t, NavigateNext(t, s)) == (k + 1) % |t| by {
      StepPositions(t, s);
    }
    if n > 0 {
      var a := NavigateNext(t, s);
      NextTimesPosition(t, a, n - 1);
      var r := NextTimes(t, a, n - 1);
      assert NextTimes(t, s, n) == r;
      ForwardThenMore(k, |t|, n - 1);
      assert k + 1 + (n - 1) == k + n;
    } else {
      SmallMod(k, |t|);
    }
  }

  /** As many presses of next as there are locations come back to where
      they started. */
  lemma FullCycleComesBack(t: seq<Location>, s: TourState)
    requires UniqueIds(t) && Valid(t, s)
    ensures NextTimes(t, s, |t|).current == s.current
  {
    NextTimesPosition(t, s, |t|);
    StepPositions(t, s);
    var k := Index(t, s);
    var r := NextTimes(t, s, |t|);
    CurrentAtIndex(t, s);
    CurrentAtIndex(t, r);
    AddMod(k, |t|);
    SmallMod(k, |t|);
  }

  /** What the visitor can do: the arrows, a hotspot on the current picture
      (shown only once it has loaded), a location thumbnail, and the picture
      finishing its load. */
  datatype Event = Next | Previous | HotspotClicked(k: nat) | ThumbnailClicked(id: string) | PictureLoaded

  function Step(t: seq<Location>, s: TourState, e: Event): TourState
    requires |t| > 0
  {
    match e
    case Next => NavigateNext(t, s)
    case Previous => NavigatePrevious(t, s)
    case HotspotClicked(k) =>
      if !s.isLoading && k < |s.current.hotspots| then NavigateTo(t, s, s.current.hotspots[k].target) else s
    case ThumbnailClicked(id) => NavigateTo(t, s, id)
    case PictureLoaded => s.(isLoading := false)
  }

  function Run(t: seq<Location>, s: TourState, es: seq<Event>): TourState
    requires |t| > 0
    decreases |es|
  {
    if es == [] then s else Run(t, Step(t, s, es[0]), es[1..])
  }

  /** Whatever the visitor does, the tour shows one of its locations and
      its position stays in range. */
  lemma {:induction false} RunStaysValid(t: seq<Location>, s: TourState, es: seq<Event>)
    requires UniqueIds(t) && Valid(t, s)
    ensures Valid(t, Run(t, s, es))
    ensures 0 <= Index(t, Run(t, s, es)) < |t|
    decreases |es|
  {
    StepPositions(t, s);
    if es != [] {
      var a := Step(t, s, es[0]);
      assert Valid(t, a);
      RunStaysValid(t, a, es[1..]);
    }
  }

  /** The tour's own table: ids are unique, so all of the above applies to
      the component, starting from its initial state. */
  lemma TourTable(es: seq<Event>)
    ensures UniqueIds(Locations) && |Locations| == 7
    ensures Valid(Locations, Run(Locations, Initial, es))
    ensures 0 <= Index(Locations, Run(Locations, Initial, es)) < 7
  {
    RunStaysValid(Locations, Initial, es);
  }

  /** No two locations of the tour share an id. */
  lemma TableIdsUnique()
    ensures UniqueIds(Locations)
  {
  }

  /** Every hotspot leads to a location of the table, so clicking it always
      moves, and sits inside the picture. */
  lemma HotspotsWellFormed(i: nat, k: nat)
    requires i < |Locations| && k < |Locations[i].hotspots|
    ensures Find(Locations, Locations[i].hotspots[k].target).Some?
    ensures 0 <= Locations[i].hotspots[k].x <= 100 && 0 <= Locations[i].hotspots[k].y <= 100
  {
    var j := TargetOf(i, k);
    assert Locations[j].id == Locations[i].hotspots[k].target;
  }

  /** The position of the location hotspot `k` of location `i` leads to. */
  function TargetOf(i: nat, k: nat): nat {
    if i == 0 then (if k == 0 then 1 else 6)
    else if i == 1 then (if k == 0 then 0 else if k == 1 then 2 else 4)
    else if i == 2 then (if k == 0 then 1 else 3)
    else if i == 3 then 2
    else if i == 4 then (if k == 0 then 1 else 5)
    else if i == 5 then 4
    else 0
  }

  /** Location `i` has a hotspot leading to location `j`. */
  predicate Links(i: nat, j: nat)
    requires i < |Locations| && j < |Locations|
  {
    exists k :: 0 <= k < |Locations[i].hotspots| && Locations[i].hotspots[k].target == Locations[j].id
  }

  /** Every link can be walked back: whenever A links to B, B links to A. */
  lemma LinksSymmetric(i: nat, j: nat)
    requires i < |Locations| && j < |Locations|
    requires Links(i, j)
    ensures Links(j, i)
  {
    var k :| 0 <= k < |Locations[i].hotspots| && Locations[i].hotspots[k].target == Locations[j].id;
    TableIdsUnique();
    assert Locations[TargetOf(i, k)].id == Locations[i].hotspots[k].target;
    assert j == TargetOf(i, k);
    var back := if i == 0 then 0 else if i == 1 then (0)
      else if i == 2 then (if j == 1 then 1 else 0)
      else if i == 3 then 1
      else if i == 4 then (if j == 1 then 2 else 0)
      else if i == 5 then 1
      else 1;
    assert Locations[j].hotspots[back].target == Locations[i].id;
  }

  /** A walk through the tour by hotspots, starting at the entrance. */
  predicate IsWalk(p: seq<nat>) {
    && |p| > 0 && p[0] == 0
    && (forall m :: 0 <= m < |p| ==> p[m] < |Locations|)
    && (forall m :: 0 <= m < |p| - 1 ==> Links(p[m], p[m + 1]))
  }

  /** Every location can be reached from the entrance by following hotspots. */
  lemma EveryLocationReachable(j: nat)
    requires j < |Locations|
    ensures exists p :: IsWalk(p) && p[|p| - 1] == j
  {
    var p: seq<nat> :=
      if j == 0 then [0]
      else if j == 1 then [0, 1]
      else if j == 2 then [0, 1, 2]
      else if j == 3 then [0, 1, 2, 3]
      else if j == 4 then [0, 1, 4]
      else if j == 5 then [0, 1, 4, 5]
      else [0, 6];
    assert Links(0, 1) by { assert Locations[0].hotspots[0].target == Locations[1].id; }
    assert Links(0, 6) by { assert Locations[0].hotspots[1].target == Locations[6].id; }
    assert Links(1, 2) by { assert Locations[1].hotspots[1].target == Locations[2].id; }
    assert Links(1, 4) by { assert Locations[1].hotspots[2].target == Locations[4].id; }
    assert Links(2, 3) by { assert Locations[2].hotspots[1].target == Locations[3].id; }
    assert Links(4, 5) by { assert Locations[4].hotspots[1].target == Locations[5].id; }
    assert IsWalk(p);
  }
}

=== FILE: wrappers.dfy ===
/** Option and Result wrappers shared by the whole model. */
module Wrappers {

  /** A value that may be absent: an unset environment variable, a failed lookup. */
  datatype Option<+T> = None | Some(value: T) {

    /** Returns the wrapped value, or `default` when there is none. */
    function GetOr(default: T): T {
      match this
      case Some(v) => v
      case None => default
    }
  }

  /** Either a value or the error that replaced it. */
  datatype Result<+R, +E> = Ok(value: R) | Err(error: E)
}
